=== FILE: README.md ===
# S10auslesen — a Dafny model of the hourly acquisition

S10auslesen reads an E3/DC S10 home power station over Modbus-TCP and
stores its readings in a MariaDB database, one table per day. A run:
- reads the device's identity block and creates the day's table; both double as connection tests;
- waits for the next full hour;
- polls the 37 measurement registers once per second for one hour, reconnecting after too many failed reads;
- stores every second that is not blank by the program's skip test under its time of day, unless the server refuses the INSERT or the key is already taken.

This project models that core in Dafny 4.11 and proves properties of it.
The modules follow the structure of the C program:

| file | module | models |
|---|---|---|
| `settings.dfy` | `Settings` | the build-time constants of `Einstellungen.h` and the two register windows |
| `words.dfy` | `Words` | fixed-width integers, host byte order, `be16toh`, and the memory image `memcpy` produces from uint16 registers |
| `layout.dfy` | `Layout` | the C rules that place struct fields: offsets, alignment, `sizeof` |
| `measurement.dfy` | `MeasurementBlock` | `s10daten`: decoding a slot from its 37 registers; the all-zero sentinel; the skip test and the database row |
| `identity.dfy` | `IdentityBlock` | `s10konstanten` and `IdentifikationsblockAuslesenModbus` (swap registers 3..66, then copy) |
| `modbus.dfy` | `Modbus` | outcomes of `modbus_read_registers` |
| `acquisition.dfy` | `Acquisition` | `LeistungsdatenAuslesenModbus` as a step function over a trace of environment events |
| `decimal.dfy` | `Decimal` | `%d` and `%0Nd` of `printf` |
| `persistence.dfy` | `Persistence` | table name, time key, the insert pass, the cleanup DELETE, `CREATE TABLE IF NOT EXISTS` |
| `scheduler.dfy` | `Scheduler` | the arithmetic of `SchlafeBisVolleStunde` |
| `program.dfy` | `Program` | `main`: the order of the steps and the exit status |
| `wrappers.dfy` | `Wrappers` | `Option` |

Each device, database and clock call becomes an input.
- **Acquisition.** Every iteration of whichever acquisition loop is running receives one `Event`. It holds four answers:
  - whether a new second has begun;
  - the outcome of the register read;
  - whether the one-second sleep completed;
  - whether the create or connect call succeeded.
- **Database.** The database is a map from table name to table, and a table is a map from time key to row. Which INSERT statements the server refuses is an input set.
- **Host byte order** is an explicit `ByteOrder` parameter. The program copies registers into structs byte for byte, so what a field holds depends on the host.

Notes on how the model reads the code:
- **Layout.** `sizeof(s10daten)` is 76 on a host that aligns int32 to four bytes. Its fields end after 74 bytes, the 37 registers one read copies. The copy never touches the two trailing padding bytes, so the calloc zeros stay there (`MeasurementBlock.StructSize`).
- **Reconnect caps.** The 600-attempt cap applies to each reconnect phase separately, because the counter is reset between them.
  - Phase A (create a context) checks the cap after the create call.
  - Phase B (connect) checks it before the connect call.
  - Both are modelled as written.
- **`fehler`** counts every failed read since the last (re)connect, not consecutive failures. A successful read leaves it unchanged.
- **Fine wait.** The fine wait before the hour stops at the first clock reading whose minute or whose second is zero. The comment above the function promises "minute = 0 and second = 0". The model follows the condition in the code; `Scheduler.FineLoopStops` states where it differs from the comment's promise. `Scheduler.FineLoopEndsAtFullHour` shows that the weaker condition does no harm once the coarse wait has reached minute 59.

## Model

Rows for functions that only compute name the lemmas that fix their
meaning. Helpers such as `SlotKeys`, `Readings` and `Image` have no row;
the lemmas and methods about them state what they mean.

| member | source | states |
|---|---|---|
| Settings.WindowsAdjacent | src/Einstellungen.h:32-35 | the identity window (registers 0..66) and the measurement window (67..103) are adjacent and disjoint, and together cover 0..103 |
| Words.AsUnsigned32 | src/S10auslesen.h:30-36 | every int32 value has a 32-bit pattern that reads back as the same value |
| Words.AsUnsigned16 | src/S10auslesen.h:42 | every int16 value (`emsrc`) has a 16-bit pattern that reads back as the same value |
| Words.SignedRoundTrip | src/S10auslesen.h:30-42 | the two's complement reading loses no bit pattern, for 16 and 32 bits |
| Words.SplitWords | src/S10auslesen.h:30-36 | splitting a uint32 into two registers and joining them in host order gives it back |
| Words.SplitJoin | src/S10auslesen.h:30-36 | joining two registers and splitting the result gives back the same two registers |
| Words.StoredWord | src/S10auslesen.c:140 | the uint16 built from two memory bytes stores exactly those bytes, in host order |
| Words.LoadImage | src/S10auslesen.c:140 | after the register array is copied, the uint16 at byte offset 2k is register k on every host |
| Words.Be16ToH | src/S10auslesen.c:295 | `be16toh`: swaps the two bytes of a register on a little-endian host and is the identity on a big-endian one; `Be16ToHStoresBigEndian` fixes its meaning |
| Words.Be16ToHStoresBigEndian | src/S10auslesen.c:294-295 | after `be16toh` a register's bytes lie in memory most significant byte first, on both byte orders |
| MeasurementBlock.StructLayout | src/S10auslesen.h:28-61 | the C layout rules put the 31 fields of `s10daten` at the offsets `Decode` reads, with no inner padding; the fields end at byte 74 = 2 * 37 |
| MeasurementBlock.StructAlignment | src/S10auslesen.h:28-61 | the widest field is an int32, so the record is 4-aligned |
| MeasurementBlock.StructSize | src/S10auslesen.c:406 | `sizeof(s10daten)` is 76: two bytes more than the 74 a read copies into a slot |
| MeasurementBlock.Decode | src/S10auslesen.c:138-140 | the slot a read of 37 registers produces: the registers' host-order bytes read at the C offsets of `s10daten`; `DecodeRegisterView`, `DecodeEncode` and `EncodeDecode` fix its meaning |
| MeasurementBlock.DecodeRegisterView | src/S10auslesen.c:138-140 | reading the copied struct field by field equals the register view: each int32 comes from a register pair in host order, the two ratio bytes share register 14, and every 16-bit field is one register |
| MeasurementBlock.DecodeEncode | src/S10auslesen.c:140 | decoding the registers of any reading gives that reading back |
| MeasurementBlock.EncodeDecode | src/S10auslesen.c:140 | encoding a decoded slot gives back the registers read: the copy loses nothing |
| MeasurementBlock.EncodeRegisterView | src/S10auslesen.c:140 | encoding the register view gives back the registers |
| MeasurementBlock.Int32RoundTrip | src/S10auslesen.h:30-36 | an int32 field assembled from two registers splits back into those two registers |
| MeasurementBlock.ZeroRegisters | src/S10auslesen.c:406 | the all-zero reading, which `calloc` leaves, is what a device sending 37 zero registers produces |
| MeasurementBlock.DecodeZero | src/S10auslesen.c:221 | a read decodes to the calloc sentinel exactly when all 37 of its registers are zero, so such a read cannot be told apart from a second that was never written |
| MeasurementBlock.IsBlank | src/S10auslesen.c:221-229 | the skip test of the insert pass: 29 of the 31 fields are zero; `BlankRegisters` and `BlankIffZeroRow` fix its meaning |
| MeasurementBlock.BlankRegisters | src/S10auslesen.c:221-229 | a read slot is skipped exactly when every register except 18 and 19 (`emsrc`, `emsctrl`) is zero, whatever those two hold |
| MeasurementBlock.Row | src/S10auslesen.c:235-242 | the 29 values an INSERT stores, in column order; `BlankIffZeroRow` relates it to the skip test |
| MeasurementBlock.BlankIffZeroRow | src/S10auslesen.c:219-229 | the skip test holds exactly when the row an INSERT would store is one the cleanup DELETE removes; the sentinel is skipped; `emsrc` and `emsctrl` play no part |
| IdentityBlock.StructLayout | src/S10auslesen.h:66-76 | `s10konstanten` is 134 bytes = 67 registers; the texts start at byte 6, so they fill exactly registers 3..66, the swapped range |
| IdentityBlock.SwapTexts | src/S10auslesen.c:294-295 | registers 0..2 unchanged, registers 3..66 passed through `be16toh`; `SwappedByte` fixes its meaning |
| IdentityBlock.DecodeIdentity | src/S10auslesen.c:291-298 | the record a read of 67 registers produces, after the swap and the copy; `DecodeIdentityFields`, `DecodeEncodeIdentity` and `EncodeDecodeIdentity` fix its meaning |
| IdentityBlock.SwappedByte | src/S10auslesen.c:294-298 | each byte of a swapped text register in the copied block is that register's wire byte: high byte first |
| IdentityBlock.TextField | src/S10auslesen.c:294-298 | a text field of the record is the 32 wire bytes of its 16 registers |
| IdentityBlock.DecodeIdentityFields | src/S10auslesen.c:291-298 | magic and register count are registers 0 and 2 unchanged; the version bytes are register 1's bytes in host order; each text holds the wire bytes of its registers |
| IdentityBlock.TextsHostIndependent | src/S10auslesen.c:293-298 | thanks to the swap, the texts are the same on little- and big-endian hosts |
| IdentityBlock.TextBytesOfRegisters | src/S10auslesen.c:294-298 | the characters read from a text's registers are that text |
| IdentityBlock.RegistersOfTextBytes | src/S10auslesen.c:294-298 | the registers rebuilt from the characters read are the registers sent |
| IdentityBlock.DecodeEncodeIdentity | src/S10auslesen.c:291-298 | decoding the registers of any identity gives that identity back |
| IdentityBlock.EncodeFields | src/S10auslesen.c:291-298 | an identity whose fields are those a block decodes to encodes back to that block |
| IdentityBlock.EncodeDecodeIdentity | src/S10auslesen.c:291-298 | encoding a decoded identity gives back the 67 registers read: decoding is injective |
| IdentityBlock.ReadIdentity | src/S10auslesen.c:280-309 | a record is produced exactly when the context was created, it connected and exactly 67 registers were read; then it is the block with registers 3..66 passed through `be16toh` and copied |
| Acquisition.Start | src/S10auslesen.c:116-133 | the loop starts exactly when create, connect and the clock reading succeed; it starts polling at second 0 with no failures, in a state satisfying the invariant `Inv` (every slot the sentinel) |
| Acquisition.Step | src/S10auslesen.c:133-175 | an iteration keeps the state's shape and never moves `sekunden` back; it writes only slot `sekunden`, and only when a new second brought a read of 37 registers; that slot then holds the registers, and `sekunden` advances by one |
| Acquisition.Run | src/S10auslesen.c:133-175 | any sequence of iterations keeps the shape and never moves `sekunden` back |
| Acquisition.Result | src/S10auslesen.c:176-184 | the slots are handed over exactly when the polling loop has ended normally; in a state satisfying `Inv` that is only once `sekunden` has reached 3600, and it is then at most 4800 |
| Acquisition.StepInv | src/S10auslesen.c:133-175 | `Inv` is preserved by an iteration: slots from `sekunden` on are the sentinel; `fehler` is at most 60 while polling and 61 while reconnecting; each attempt counter is at most 600; `sekunden` ends between 3600 and 4800 |
| Acquisition.RunInv | src/S10auslesen.c:133-175 | `Inv` holds after any sequence of iterations |
| Acquisition.WritesInRange | src/S10auslesen.c:136-171 | every slot write goes to an index in 0..3599, at or after the starting `sekunden` and below the final one: no write is out of range |
| Acquisition.WritesOrdered | src/S10auslesen.c:136-171 | slot writes go to strictly increasing indices: no slot is written twice |
| Acquisition.WritesUntouched | src/S10auslesen.c:133-141 | a slot no write goes to keeps its content |
| Acquisition.WritesLand | src/S10auslesen.c:138-140 | every written slot ends up holding the registers of its write |
| Acquisition.UnwrittenStayCleared | src/S10auslesen.c:406 | from the start, a never-written slot ends the hour as the calloc sentinel |
| Acquisition.HourOutcome | src/S10auslesen.c:133-184 | a result exists only once `sekunden` has passed 3600 (and at most 4800); every slot is then the sentinel or the registers of a write to it |
| Acquisition.PollingStep | src/S10auslesen.c:135-171 | without a new second nothing changes; a delivered read fills the slot and leaves `fehler`; a failed one leaves the slots and increments `fehler`; reconnecting starts exactly when `fehler` exceeds 60, and then the second is not yet counted |
| Acquisition.FehlerChanges | src/S10auslesen.c:145-168 | `fehler` drops only when phase B connects, and then to 0; it rises, by one, exactly on a failed read |
| Acquisition.ReconnectStep | src/S10auslesen.c:151-171 | a reconnect attempt leaves the slots alone; the phase is lost exactly when its attempt number exceeds 600; in both phases a completed sleep adds one second, and in phase B a successful connect adds one more, the deferred second of the failed read |
| Acquisition.PollSeconds | src/S10auslesen.c:133-175 | with at most 60 failures in total, each new second advances `sekunden` by one and `fehler` counts the failures; delivered seconds hold their reading, failed ones keep their slot; the loop ends exactly at second 3600 |
| Acquisition.CleanHour | src/S10auslesen.c:133-176 | 3600 delivered reads from the start finish the hour with `fehler` 0 and slot i holding read i |
| Acquisition.RunAppend | src/S10auslesen.c:133-175 | running two traces one after the other is running their concatenation |
| Acquisition.CreatePhase | src/S10auslesen.c:151-158 | phase A with failing attempts, then a success within the cap, reaches phase B; each attempt counts one second |
| Acquisition.ConnectPhase | src/S10auslesen.c:160-171 | phase B likewise resumes polling with `fehler` 0; `sekunden` is advanced by its attempts plus the deferred second of the failed read |
| Acquisition.Reconnect | src/S10auslesen.c:143-171 | a repaired link drop (the 61st failed read, a attempts in phase A, b in phase B) resumes at second k+a+b+1 with `fehler` 0 and no slot written, so the time axis stays aligned |
| Acquisition.GiveUp | src/S10auslesen.c:151-166 | a phase whose attempts all fail is lost after exactly the attempts left under the cap, not before; the slots are unchanged and no result is handed over |
| Acquisition.Final | src/S10auslesen.c:176-184 | after success or loss no further iteration changes anything |
| Decimal.ValueOfDigits | src/S10auslesen.c:209 | reading the digits of `%d` back gives the number |
| Decimal.DigitsLength | src/S10auslesen.c:209 | a number below 10^k has at most k digits, and exactly k if it is at least 10^(k-1) |
| Decimal.PadZeroFixed | src/S10auslesen.c:234 | `%0Nd` of 0 <= n < 10^N is N digits that read back as n |
| Decimal.PadZeroLength | src/S10auslesen.c:209 | `%0Nd` of a number below 10^k in magnitude takes at most k+1 characters |
| Persistence.TableName | src/S10auslesen.c:209 | `%04d_%02d_%02d` of year + 1900, month + 1 and day; `TableNameRoundTrip`, `TableNameInjective` and `TableNameFits` fix its meaning |
| Persistence.TimeKey | src/S10auslesen.c:234 | `%02d:%02zu:%02zu` of the hour, slot cnt's minute and its second; `TimeKeyRoundTrip`, `TimeKeyInjective` and `TimeKeyFits` fix its meaning |
| Persistence.TableNameRoundTrip | src/S10auslesen.c:209 | for a date in years 0..9999 the table name is 10 characters `YYYY_MM_DD`, from which the date is read back |
| Persistence.TableNameInjective | src/S10auslesen.c:339 | two calendar dates give the same table name, in create and insert alike, exactly when they are the same day |
| Persistence.SlotFields | src/S10auslesen.c:234 | slot cnt's minute `(cnt - cnt % 60) / 60` and second `cnt % 60` are 0..59, each printed in two digits that read back |
| Persistence.TimeKeyRoundTrip | src/S10auslesen.c:234 | for hours 0..23 the key of slot cnt is 8 characters `HH:MM:SS` that read back as the hour and cnt |
| Persistence.TimeKeyInjective | src/S10auslesen.c:234 | whatever `tm_hour` holds, two slots of an hour share a key exactly when they are the same slot |
| Persistence.TableNameFits | src/Einstellungen.h:50-51 | for any int date fields the table name and its NUL fit into the 48-byte buffer |
| Persistence.TimeKeyFits | src/S10auslesen.c:210 | for any int hour the time key and its NUL fit into its 48-byte buffer |
| Persistence.SlotKeysDistinct | src/S10auslesen.c:219-234 | the 3600 keys of an hour are pairwise distinct |
| Persistence.InsertSlots | src/S10auslesen.c:219-246 | existing rows are never changed; a slot's key is present afterwards exactly when it was before, or the slot is not blank and its INSERT was not refused; a new row holds the slot's 29 values; nothing outside the hour's keys is added |
| Persistence.DeleteZeroRows | src/S10auslesen.c:250-258 | afterwards no row is all zero; every other row is kept unchanged; no row is added |
| Persistence.CreateDayTable | src/S10auslesen.c:338-341 | the query succeeds exactly when connected and accepted, and then the day's table exists; existing tables, including the day's, are untouched; the only table added is the day's, empty |
| Persistence.CreateIdempotent | src/S10auslesen.c:338 | creating the day's table twice is the same as creating it once |
| Persistence.StoreHour | src/S10auslesen.c:198-272 | the result is success exactly when the database is reached, whatever happened to the individual statements. Without a connection nothing changes. No table is added or removed. In an existing day table every non-blank, unrefused slot with a free key is stored, and no old row except an all-zero one is lost. An old row still present afterwards is unchanged, and without the DELETE no old row is removed. Every new row is the row of a non-blank, unrefused slot of the hour, stored under that slot's time key. After the DELETE no all-zero row remains, and no row of this hour is removed |
| Scheduler.CoarseWait | src/S10auslesen.c:70-71 | the coarse sleep `60 * (59 - min) + 58 - sec`, clamped at 0; `CoarseWaitTarget` fixes its meaning |
| Scheduler.FineLoopContinues | src/S10auslesen.c:81 | the fine loop's condition as written, `sec > 0 && min > 0`; `FineLoopStops` and `FineLoopEndsAtFullHour` fix its meaning |
| Scheduler.CoarseWaitTarget | src/S10auslesen.c:70-71 | from min:sec up to 59:58 the coarse wait ends exactly at 59:58; after that it is clamped to 0; it never exceeds 3598 s |
| Scheduler.FineLoopStops | src/S10auslesen.c:81 | the fine loop stops exactly when the second or the minute is zero; it stops at 00:00; it continues throughout minute 59 from second 1 |
| Scheduler.FirstStop | src/S10auslesen.c:77-81 | the reading at which the loop stops is the first one that fails its condition |
| Scheduler.FineLoopEndsAtFullHour | src/S10auslesen.c:74-81 | started at 59:01 or later with a clock read at least once per second, the fine loop stops exactly at the first 00:00 reading |
| Program.ClearedSlotSkipped | src/S10auslesen.c:221 | a slot the acquisition never wrote reads as the sentinel and is skipped by the insert pass |
| Program.Execute | src/S10auslesen.c:395-421 | the exit status is success exactly when the identity was read, the table created, the hour acquired and the database reached. A run that fails stores nothing: every table is as it was, except that the day's table may have been created, empty. The only table ever added is the day's, no table is dropped, and every other table is unchanged. An old row of the day's table that is not all zero is kept, and any old row still present is unchanged. On success every non-blank, unrefused reading of the hour is stored under its time key unless that key was taken, and every row new in the day's table is such a reading under its key |

## Left out

- `StartDatum` (src/S10auslesen.c:47-56): the date and hour are an input `Tm`. The source passes `gmtime` fields to `mktime`, which reads them as local time, so its result depends on the host time zone.
- `ErzeugeJSON` (src/S10auslesen.c:88-102): a best-effort file write; its effect on the slots is nothing.
- The SQL text:
  - the INSERT, DELETE and CREATE strings are replaced by their effect on the map database;
  - the table comment holding the identity (src/S10auslesen.c:372-374) is left out, so `CreateDayTable` does not take the identity;
  - column type limits are server behaviour: the power columns are SMALLINT while the fields are int32 (src/S10auslesen.c:342-348 against src/S10auslesen.h:30-36), and `soc`, `notstrom` and `status` are TINYINT UNSIGNED while the fields are uint16 (src/S10auslesen.c:351-353 against src/S10auslesen.h:39-41). The model assumes a server in strict SQL mode, which rejects an out-of-range value; such a rejected INSERT belongs to the `refused` input. A server without strict mode clamps the value and accepts the INSERT, so the stored row differs from `Row`; the value clauses of `Persistence.StoreHour` and `Program.Execute` do not cover that server.
- libmodbus and MariaDB calls are outcomes supplied by the environment. So are the monotonic clock, `nanosleep` and its 30 ms / 100 ms granularity, and the wall clock.
- Allocation failures (`calloc`, `malloc`, `mysql_init`), goto-based cleanup, resource leaks, and closing a possibly NULL context after a phase-A abort (src/S10auslesen.c:182): the model has no heap.
- `const` record fields (src/S10auslesen.h:30-75): records are immutable datatypes, built only by `Decode` and `DecodeIdentity`.
- Acquisition.Result: a trace that ends before the loop does gives no result. The C loop always runs to the end or the cap, so such a trace stands for an unfinished run, not a failure of the program.
- Persistence.StoreHour: success also needs `mysql_init` to succeed (src/S10auslesen.c:201-202) and the four buffers to be allocated (src/S10auslesen.c:206, 210, 213, 216), which the model leaves out as above.
- Persistence.TimeKeyRoundTrip: stated for hours 0..23, the range `gmtime` produces. TimeKeyInjective and TimeKeyFits hold for any int hour.
- Persistence.TableNameRoundTrip: stated for years 0..9999. Outside that range `%04d` prints more than four characters. TableNameFits covers every int value except an overflowing `tm_year + 1900`, which it excludes in its requires.
- The coarse wait's retry on an interrupted `nanosleep` (src/S10auslesen.c:67-73) recomputes the same formula from a new reading, so only the formula is modelled.

=== FILE: acquisition.dfy ===
/**
 * The hour of acquisition (`LeistungsdatenAuslesenModbus`): once per wall
 * second the 37 measurement registers are read and copied into the slot of
 * that second; failed reads are counted, and after more than 60 of them the
 * connection is rebuilt in two bounded phases (create a context, then
 * connect it), each attempt costing one second. Seconds spent on failures
 * and on reconnecting keep their all-zero slot, so every slot index stays
 * the second of the hour it belongs to.
 *
 * The clock, the sleeps and the Modbus library are environment: each
 * iteration of whichever loop is running receives one `Event` carrying
 * their answers, and each phase consults only the answers its loop uses.
 */
module Acquisition {
  import opened Words
  import opened Settings
  import opened Modbus
  import opened Wrappers
  import opened MeasurementBlock

  /** Which loop of the acquisition is running. */
  datatype Phase =
    | Polling                  // `while (sekunden < NO_DATEN)`
    | Creating(attempts: nat)  // reconnect phase A: create a new context
    | Connecting(attempts: nat) // reconnect phase B: connect the context
    | Finished                 // the loop ended: EXIT_SUCCESS
    | Lost                     // an attempt cap was exceeded: EXIT_FAILURE

  /**
   * The content of one slot of the hour's array: the 37 register values
   * whose bytes `memcpy` placed there. Its `s10daten` reading is
   * `MeasurementBlock.Decode` of it.
   */
  type Block = seq<u16>

  /**
   * `sekunden` is the index of the slot the next successful read fills,
   * `fehler` the failure counter, `slots` the array of the hour.
   */
  datatype State = State(sekunden: nat, fehler: nat, phase: Phase, slots: seq<Block>)

  /**
   * The environment's answers for one loop iteration: whether the monotonic
   * clock has reached the next second (polling), what the register read
   * returned (polling), whether the one-second sleep ran to completion
   * (reconnecting), and whether creating resp. connecting the context
   * succeeded (reconnecting).
   */
  datatype Event = Event(newSecond: bool, read: ReadOutcome, slept: bool, succeeded: bool)

  /**
   * The shape every state keeps: one slot of 37 registers per second of the
   * hour, and polling only below the end of the hour.
   */
  predicate WellFormed(s: State)
  {
    && |s.slots| == NO_DATEN
    && (forall i :: 0 <= i < NO_DATEN ==> |s.slots[i]| == LEISTUNGSREGISTER)
    && (s.phase.Polling? ==> s.sekunden < NO_DATEN)
  }

  /** The polling loop's condition, evaluated at its top. */
  function LoopTop(s: State): (r: State)
    ensures r.phase.Polling? <==> s.sekunden < NO_DATEN
    ensures r.phase.Finished? <==> NO_DATEN <= s.sekunden
    ensures r == s.(phase := r.phase)
  {
    if s.sekunden < NO_DATEN then s.(phase := Polling) else s.(phase := Finished)
  }

  /**
   * The state before the first iteration, or None when the initial create,
   * connect or clock reading failed.
   */
  function Start(created: bool, connected: bool, clockOk: bool): (r: Option<State>)
    ensures r.Some? <==> created && connected && clockOk
    ensures r.Some? ==> WellFormed(r.value) && r.value.phase.Polling?
    ensures r.Some? ==> r.value.sekunden == 0 && r.value.fehler == 0 && Inv(r.value)
  {
    if created && connected && clockOk then Some(State(0, 0, Polling, seq(NO_DATEN, _ => Cleared())))
    else None
  }

  /** The slot a polling iteration writes, if any. */
  function WriteSlot(s: State, e: Event): Option<nat>
  {
    if s.phase.Polling? && e.newSecond && Delivered(e.read, LEISTUNGSREGISTER) then Some(s.sekunden) else None
  }

  /**
   * One iteration of the running loop.
   *
   * Polling: without a new second nothing happens (the short sleep). A read
   * of 37 registers fills slot `sekunden`; a failed one increments `fehler`
   * and, once that exceeds 60, starts reconnecting without advancing
   * `sekunden` yet. Both paths otherwise advance to the next second.
   *
   * Phase A: a completed sleep adds a second, the attempt is counted, and
   * the cap is checked after the create call; a created context moves on
   * to phase B. Phase B: the same, but the cap is checked before the
   * connect call; a connected context resets `fehler` and resumes polling
   * with the deferred increment of `sekunden`.
   */
  function Step(s: State, e: Event): (r: State)
    requires WellFormed(s)
    ensures WellFormed(r)
    ensures s.sekunden <= r.sekunden
    ensures forall i :: 0 <= i < NO_DATEN && i != s.sekunden ==> r.slots[i] == s.slots[i]
    ensures WriteSlot(s, e).None? ==> r.slots == s.slots
    ensures WriteSlot(s, e).Some? ==>
      r.slots[s.sekunden] == e.read.regs && r.sekunden == s.sekunden + 1
  {
    match s.phase
    case Polling =>
      if !e.newSecond then s
      else if Delivered(e.read, LEISTUNGSREGISTER) then
        LoopTop(s.(slots := s.slots[s.sekunden := e.read.regs], sekunden := s.sekunden + 1))
      else if s.fehler + 1 > LESEFEHLER_AKZEPT then
        s.(fehler := s.fehler + 1, phase := Creating(0))
      else
        LoopTop(s.(fehler := s.fehler + 1, sekunden := s.sekunden + 1))
    case Creating(n) =>
      var t := s.(sekunden := s.sekunden + (if e.slept then 1 else 0));
      if n + 1 > NEUVERBIND_AKZEPT then t.(phase := Lost)
      else if e.succeeded then t.(phase := Connecting(0))
      else t.(phase := Creating(n + 1))
    case Connecting(n) =>
      var t := s.(sekunden := s.sekunden + (if e.slept then 1 else 0));
      if n + 1 > NEUVERBIND_AKZEPT then t.(phase := Lost)
      else if e.succeeded then LoopTop(t.(fehler := 0, sekunden := t.sekunden + 1))
      else t.(phase := Connecting(n + 1))
    case Finished => s
    case Lost => s
  }

  /** The state after a sequence of iterations. */
  function Run(s: State, trace: seq<Event>): (r: State)
    requires WellFormed(s)
    ensures WellFormed(r)
    ensures s.sekunden <= r.sekunden
    decreases |trace|
  {
    if trace == [] then s else Run(Step(s, trace[0]), trace[1..])
  }

  /** A slot write performed by a successful read. */
  datatype Write = Write(slot: nat, value: Block)

  /** No write in `w` goes to slot `i`. */
  predicate NotWritten(w: seq<Write>, i: nat)
  {
    forall j :: 0 <= j < |w| ==> w[j].slot != i
  }

  /** The slot writes a sequence of iterations performs, in order. */
  function Writes(s: State, trace: seq<Event>): seq<Write>
    requires WellFormed(s)
    decreases |trace|
  {
    if trace == [] then []
    else
      var first := match WriteSlot(s, trace[0])
        case Some(i) => [Write(i, trace[0].read.regs)]
        case None => [];
      first + Writes(Step(s, trace[0]), trace[1..])
  }

  /** What the acquisition hands to the insert pass: the slots, on success only. */
  function Result(s: State): (r: Option<seq<Block>>)
    ensures r.Some? <==> s.phase.Finished?
    ensures r.Some? ==> r.value == s.slots
    ensures r.Some? && Inv(s) ==> NO_DATEN <= s.sekunden <= NO_DATEN + 2 * NEUVERBIND_AKZEPT
  {
    if s.phase.Finished? then Some(s.slots) else None
  }

  /**
   * The invariant of the acquisition: slots from `sekunden` on are still
   * the sentinel, the failure counter stays within its bound while polling
   * and is just past it while reconnecting, attempt counters stay within
   * their cap, and the deferred seconds of reconnecting are bounded.
   */
  predicate Inv(s: State)
  {
    && WellFormed(s)
    && (forall i :: s.sekunden <= i < NO_DATEN ==> s.slots[i] == Cleared())
    && match s.phase
       case Polling => s.fehler <= LESEFEHLER_AKZEPT
       case Creating(n) =>
         n <= NEUVERBIND_AKZEPT && s.fehler == LESEFEHLER_AKZEPT + 1 && s.sekunden < NO_DATEN + n
       case Connecting(n) =>
         n <= NEUVERBIND_AKZEPT && s.fehler == LESEFEHLER_AKZEPT + 1
         && s.sekunden < NO_DATEN + NEUVERBIND_AKZEPT + n
       case Finished => NO_DATEN <= s.sekunden <= NO_DATEN + 2 * NEUVERBIND_AKZEPT
       case Lost => s.sekunden <= NO_DATEN + 2 * NEUVERBIND_AKZEPT
  }

  lemma {:induction false} StepInv(s: State, e: Event)
    requires Inv(s)
    ensures Inv(Step(s, e))
  {
    var r := Step(s, e);
    forall i | r.sekunden <= i < NO_DATEN
      ensures r.slots[i] == Cleared()
    {
      assert i != s.sekunden || WriteSlot(s, e).None?;
    }
  }

  lemma {:induction false} RunInv(s: State, trace: seq<Event>)
    requires Inv(s)
    ensures Inv(Run(s, trace))
    decreases |trace|
  {
    if trace != [] {
      StepInv(s, trace[0]);
      RunInv(Step(s, trace[0]), trace[1..]);
    }
  }

  /** Every write in `w` goes to a slot of the hour in `lo..hi-1`. */
  predicate InRange(w: seq<Write>, lo: nat, hi: nat)
  {
    forall j :: 0 <= j < |w| ==> lo <= w[j].slot < hi && w[j].slot < NO_DATEN
  }

  /**
   * Slot writes go to seconds of the hour at or after the starting second
   * and before the second the run ends at.
   */
  lemma {:induction false} WritesInRange(s: State, trace: seq<Event>)
    requires WellFormed(s)
    ensures InRange(Writes(s, trace), s.sekunden, Run(s, trace).sekunden)
    decreases |trace|
  {
    if trace != [] {
      var e := trace[0];
      var s1 := Step(s, e);
      WritesInRange(s1, trace[1..]);
      var rest := Writes(s1, trace[1..]);
      var w := Writes(s, trace);
      var hi := Run(s, trace).sekunden;
      assert hi == Run(s1, trace[1..]).sekunden;
      match WriteSlot(s, e)
      case None =>
        assert w == rest;
      case Some(i) =>
        assert w == [Write(i, e.read.regs)] + rest;
        assert i == s.sekunden && s1.sekunden == i + 1 && i < NO_DATEN;
        forall j | 0 <= j < |w|
          ensures s.sekunden <= w[j].slot < hi && w[j].slot < NO_DATEN
        {
          if j > 0 {
            assert w[j] == rest[j - 1];
          }
        }
    }
  }

  /** Slot writes go to strictly increasing seconds: no slot is written twice. */
  lemma {:induction false} WritesOrdered(s: State, trace: seq<Event>)
    requires WellFormed(s)
    ensures forall j, k :: 0 <= j < k < |Writes(s, trace)| ==> Writes(s, trace)[j].slot < Writes(s, trace)[k].slot
    decreases |trace|
  {
    if trace != [] {
      var e := trace[0];
      var s1 := Step(s, e);
      WritesOrdered(s1, trace[1..]);
      var rest := Writes(s1, trace[1..]);
      var w := Writes(s, trace);
      match WriteSlot(s, e)
      case None =>
        assert w == rest;
      case Some(i) =>
        WritesInRange(s1, trace[1..]);
        assert w == [Write(i, e.read.regs)] + rest;
        assert s1.sekunden == i + 1;
        forall j, k | 0 <= j < k < |w|
          ensures w[j].slot < w[k].slot
        {
          assert w[k] == rest[k - 1];
          if j > 0 {
            assert w[j] == rest[j - 1];
          }
        }
    }
  }

  /** A slot no write goes to keeps its content through the run. */
  lemma {:induction false} WritesUntouched(s: State, trace: seq<Event>)
    requires WellFormed(s)
    ensures forall i :: 0 <= i < NO_DATEN && NotWritten(Writes(s, trace), i) ==> Run(s, trace).slots[i] == s.slots[i]
    decreases |trace|
  {
    if trace != [] {
      var e := trace[0];
      var s1 := Step(s, e);
      WritesUntouched(s1, trace[1..]);
      var rest := Writes(s1, trace[1..]);
      var w := Writes(s, trace);
      var r := Run(s, trace);
      assert r == Run(s1, trace[1..]);
      assert w == (if WriteSlot(s, e).Some? then [Write(s.sekunden, e.read.regs)] else []) + rest;
      forall k | 0 <= k < NO_DATEN && NotWritten(w, k)
        ensures r.slots[k] == s.slots[k]
      {
        var d := |w| - |rest|;
        assert NotWritten(rest, k) by {
          forall j | 0 <= j < |rest|
            ensures rest[j].slot != k
          {
            assert rest[j] == w[j + d];
          }
        }
        if WriteSlot(s, e).Some? {
          assert w[0].slot == s.sekunden;
        }
      }
    }
  }

  /** Every written slot ends up holding the registers of its write. */
  lemma {:induction false} WritesLand(s: State, trace: seq<Event>)
    requires WellFormed(s)
    ensures forall j :: 0 <= j < |Writes(s, trace)| ==>
      Writes(s, trace)[j].slot < NO_DATEN && Run(s, trace).slots[Writes(s, trace)[j].slot] == Writes(s, trace)[j].value
    decreases |trace|
  {
    if trace != [] {
      var e := trace[0];
      var s1 := Step(s, e);
      WritesLand(s1, trace[1..]);
      var rest := Writes(s1, trace[1..]);
      var w := Writes(s, trace);
      var r := Run(s, trace);
      assert r == Run(s1, trace[1..]);
      match WriteSlot(s, e)
      case None =>
        assert w == rest;
      case Some(i) =>
        assert w == [Write(i, e.read.regs)] + rest;
        assert i < NO_DATEN;
        WritesInRange(s1, trace[1..]);
        WritesUntouched(s1, trace[1..]);
        assert NotWritten(rest, i);
        assert r.slots[i] == s1.slots[i];
        forall j | 1 <= j < |w|
          ensures r.slots[w[j].slot] == w[j].value
        {
          assert w[j] == rest[j - 1];
        }
    }
  }

  /** A complete hour from the start leaves every slot that was never written as the sentinel. */
  lemma UnwrittenStayCleared(trace: seq<Event>, i: nat)
    requires i < NO_DATEN
    requires NotWritten(Writes(Start(true, true, true).value, trace), i)
    ensures Run(Start(true, true, true).value, trace).slots[i] == Cleared()
  {
    WritesUntouched(Start(true, true, true).value, trace);
  }

  /**
   * One processed second while polling: a delivered read fills the slot and
   * leaves `fehler` alone; a failed one increments `fehler`, and it starts
   * reconnecting exactly when `fehler` then exceeds 60, in which case the
   * second is not yet counted. Without a new second nothing changes.
   */
  lemma PollingStep(s: State, e: Event)
    requires WellFormed(s) && s.phase.Polling?
    ensures !e.newSecond ==> Step(s, e) == s
    ensures e.newSecond && Delivered(e.read, LEISTUNGSREGISTER) ==>
      var r := Step(s, e);
      r.fehler == s.fehler && r.sekunden == s.sekunden + 1 && r.slots == s.slots[s.sekunden := e.read.regs]
    ensures e.newSecond && !Delivered(e.read, LEISTUNGSREGISTER) ==>
      var r := Step(s, e);
      && r.fehler == s.fehler + 1 && r.slots == s.slots
      && (r.phase == Creating(0) <==> s.fehler + 1 > LESEFEHLER_AKZEPT)
      && (r.phase == Creating(0) ==> r.sekunden == s.sekunden)
      && (r.phase != Creating(0) ==> r.sekunden == s.sekunden + 1)
    ensures Step(s, e).phase in {Polling, Finished, Creating(0)}
  {
  }

  /**
   * The failure counter only goes down when phase B connects, and then to
   * zero; otherwise it rises by one exactly on a failed read.
   */
  lemma FehlerChanges(s: State, e: Event)
    requires WellFormed(s)
    ensures var r := Step(s, e);
      r.fehler < s.fehler ==> s.phase.Connecting? && r.fehler == 0 && (r.phase.Polling? || r.phase.Finished?)
    ensures var r := Step(s, e);
      r.fehler > s.fehler <==> s.phase.Polling? && e.newSecond && !Delivered(e.read, LEISTUNGSREGISTER)
    ensures var r := Step(s, e);
      r.fehler > s.fehler ==> r.fehler == s.fehler + 1
  {
  }

  /**
   * Attempts in either reconnect phase: a completed sleep counts a second,
   * and a successful connect also the deferred second of the failed read;
   * the slots stay as they are, and the phase is lost exactly when the
   * attempt number exceeds 600, whatever the library answered.
   */
  lemma ReconnectStep(s: State, e: Event)
    requires WellFormed(s) && (s.phase.Creating? || s.phase.Connecting?)
    ensures var r := Step(s, e);
      && r.slots == s.slots
      && (r.phase.Lost? <==> s.phase.attempts + 1 > NEUVERBIND_AKZEPT)
      && (r.phase.Lost? ==> r.sekunden == s.sekunden + (if e.slept then 1 else 0))
    ensures s.phase.Creating? ==> var r := Step(s, e);
      !r.phase.Lost? ==> r.sekunden == s.sekunden + (if e.slept then 1 else 0)
    ensures s.phase.Connecting? ==> var r := Step(s, e);
      !r.phase.Lost? ==> r.sekunden == s.sekunden + (if e.slept then 1 else 0) + (if e.succeeded then 1 else 0)
  {
  }

  /** The number of iterations in a trace whose read was not delivered. */
  function FailedReads(trace: seq<Event>): (n: nat)
    ensures n <= |trace|
  {
    if trace == [] then 0
    else (if Delivered(trace[0].read, LEISTUNGSREGISTER) then 0 else 1) + FailedReads(trace[1..])
  }

  /**
   * Up to 60 failed reads in total never interrupt polling: every iteration
   * that sees a new second advances `sekunden` by one, `fehler` grows by the
   * failures, delivered seconds hold their reading and failed ones keep
   * what the slot held; the loop finishes exactly when the last second of
   * the hour is processed.
   */
  lemma {:induction false} PollSeconds(s: State, trace: seq<Event>)
    requires WellFormed(s) && s.phase.Polling?
    requires s.sekunden + |trace| <= NO_DATEN
    requires s.fehler + FailedReads(trace) <= LESEFEHLER_AKZEPT
    requires forall j :: 0 <= j < |trace| ==> trace[j].newSecond
    ensures var r := Run(s, trace);
      && r.sekunden == s.sekunden + |trace|
      && r.fehler == s.fehler + FailedReads(trace)
      && (r.phase.Finished? <==> r.sekunden == NO_DATEN)
      && (r.phase.Polling? <==> r.sekunden < NO_DATEN)
    ensures var r := Run(s, trace);
      forall j :: 0 <= j < |trace| ==>
        r.slots[s.sekunden + j] ==
          if Delivered(trace[j].read, LEISTUNGSREGISTER) then trace[j].read.regs else s.slots[s.sekunden + j]
    ensures var r := Run(s, trace);
      forall i :: 0 <= i < NO_DATEN && (i < s.sekunden || s.sekunden + |trace| <= i) ==> r.slots[i] == s.slots[i]
    decreases |trace|
  {
    if trace != [] {
      var e := trace[0];
      var s1 := Step(s, e);
      assert e.newSecond;
      assert s1.sekunden == s.sekunden + 1;
      assert FailedReads(trace) == (if Delivered(e.read, LEISTUNGSREGISTER) then 0 else 1) + FailedReads(trace[1..]);
      var r := Run(s, trace);
      assert r == Run(s1, trace[1..]);
      if s1.phase.Finished? {
        assert trace[1..] == [];
      } else {
        assert s1.phase.Polling?;
        PollSeconds(s1, trace[1..]);
        forall j | 1 <= j < |trace|
          ensures r.slots[s.sekunden + j] ==
            if Delivered(trace[j].read, LEISTUNGSREGISTER) then trace[j].read.regs else s.slots[s.sekunden + j]
        {
          assert trace[1..][j - 1] == trace[j];
          assert s1.sekunden + (j - 1) == s.sekunden + j;
        }
      }
    }
  }

  /** A full hour of delivered reads from the start fills every slot, in order. */
  lemma CleanHour(trace: seq<Event>)
    requires |trace| == NO_DATEN
    requires forall j :: 0 <= j < |trace| ==> trace[j].newSecond && Delivered(trace[j].read, LEISTUNGSREGISTER)
    ensures var r := Run(Start(true, true, true).value, trace);
      && r.phase.Finished? && r.fehler == 0
      && forall i :: 0 <= i < NO_DATEN ==> trace[i].read.Registers? && r.slots[i] == trace[i].read.regs
  {
    NoFailedReads(trace);
    PollSeconds(Start(true, true, true).value, trace);
  }

  lemma {:induction false} NoFailedReads(trace: seq<Event>)
    requires forall j :: 0 <= j < |trace| ==> Delivered(trace[j].read, LEISTUNGSREGISTER)
    ensures FailedReads(trace) == 0
  {
    if trace != [] {
      NoFailedReads(trace[1..]);
    }
  }

  lemma {:induction false} RunAppend(s: State, a: seq<Event>, b: seq<Event>)
    requires WellFormed(s)
    ensures Run(s, a + b) == Run(Run(s, a), b)
    decreases |a|
  {
    if a != [] {
      var s1 := Step(s, a[0]);
      assert a + b != [];
      assert (a + b)[0] == a[0];
      assert (a + b)[1..] == a[1..] + b;
      assert Run(s, a + b) == Run(s1, a[1..] + b);
      assert Run(s, a) == Run(s1, a[1..]);
      RunAppend(s1, a[1..], b);
    } else {
      assert a + b == b;
    }
  }

  /** An attempt that fails after a completed sleep. */
  predicate FailingAttempt(e: Event) { e.slept && !e.succeeded }

  /**
   * Phase A, started at attempt n, with k-1 failing attempts and then a
   * successful create, all within the cap: phase B begins and every attempt
   * counted one second.
   */
  lemma {:induction false} CreatePhase(s: State, trace: seq<Event>)
    requires WellFormed(s) && s.phase.Creating?
    requires |trace| >= 1 && s.phase.attempts + |trace| <= NEUVERBIND_AKZEPT
    requires forall j :: 0 <= j < |trace| - 1 ==> FailingAttempt(trace[j])
    requires trace[|trace| - 1].slept && trace[|trace| - 1].succeeded
    ensures var r := Run(s, trace);
      r == s.(sekunden := s.sekunden + |trace|, phase := Connecting(0))
    decreases |trace|
  {
    var s1 := Step(s, trace[0]);
    if |trace| > 1 {
      assert s1 == s.(sekunden := s.sekunden + 1, phase := Creating(s.phase.attempts + 1));
      CreatePhase(s1, trace[1..]);
    }
  }

  /**
   * Phase B likewise: after k-1 failing attempts and a successful connect
   * within the cap, polling resumes with `fehler` reset and `sekunden`
   * advanced by the k attempts plus the deferred second of the failed read.
   */
  lemma {:induction false} ConnectPhase(s: State, trace: seq<Event>)
    requires WellFormed(s) && s.phase.Connecting?
    requires |trace| >= 1 && s.phase.attempts + |trace| <= NEUVERBIND_AKZEPT
    requires forall j :: 0 <= j < |trace| - 1 ==> FailingAttempt(trace[j])
    requires trace[|trace| - 1].slept && trace[|trace| - 1].succeeded
    ensures var r := Run(s, trace);
      r == LoopTop(s.(sekunden := s.sekunden + |trace| + 1, fehler := 0))
    decreases |trace|
  {
    var s1 := Step(s, trace[0]);
    if |trace| > 1 {
      assert s1 == s.(sekunden := s.sekunden + 1, phase := Connecting(s.phase.attempts + 1));
      ConnectPhase(s1, trace[1..]);
    }
  }

  /**
   * A link drop that is repaired: the 61st failed read at second k, then a
   * attempts of phase A and b attempts of phase B, each ending in success.
   * Polling resumes at second k + a + b + 1 with `fehler` zero; no slot was
   * written, so the seconds k .. k+a+b keep their sentinel and the time
   * axis stays aligned.
   */
  lemma Reconnect(s: State, fail: Event, create: seq<Event>, connect: seq<Event>)
    requires WellFormed(s) && s.phase.Polling? && s.fehler == LESEFEHLER_AKZEPT
    requires fail.newSecond && !Delivered(fail.read, LEISTUNGSREGISTER)
    requires 1 <= |create| <= NEUVERBIND_AKZEPT && 1 <= |connect| <= NEUVERBIND_AKZEPT
    requires forall j :: 0 <= j < |create| - 1 ==> FailingAttempt(create[j])
    requires create[|create| - 1].slept && create[|create| - 1].succeeded
    requires forall j :: 0 <= j < |connect| - 1 ==> FailingAttempt(connect[j])
    requires connect[|connect| - 1].slept && connect[|connect| - 1].succeeded
    ensures var r := Run(s, [fail] + create + connect);
      && r.sekunden == s.sekunden + |create| + |connect| + 1
      && r.fehler == 0 && r.slots == s.slots
      && (r.phase.Polling? <==> r.sekunden < NO_DATEN)
      && (r.phase.Finished? <==> NO_DATEN <= r.sekunden)
  {
    var s1 := Step(s, fail);
    assert s1 == s.(fehler := s.fehler + 1, phase := Creating(0));
    RunAppend(s, [fail], create + connect);
    assert Run(s, [fail]) == s1;
    assert [fail] + create + connect == [fail] + (create + connect);
    RunAppend(s1, create, connect);
    CreatePhase(s1, create);
    ConnectPhase(s1.(sekunden := s1.sekunden + |create|, phase := Connecting(0)), connect);
  }

  /**
   * A reconnect phase whose attempts all fail is given up after exactly the
   * attempts that remain under the cap, with the slots as they were.
   */
  lemma {:induction false} GiveUp(s: State, trace: seq<Event>)
    requires WellFormed(s) && (s.phase.Creating? || s.phase.Connecting?)
    requires s.phase.attempts <= NEUVERBIND_AKZEPT
    requires s.phase.attempts + |trace| == NEUVERBIND_AKZEPT + 1
    requires forall j :: 0 <= j < |trace| ==> !trace[j].succeeded
    ensures var r := Run(s, trace);
      r.phase.Lost? && r.slots == s.slots && Result(r).None?
    ensures forall k :: 1 <= k < |trace| ==> !Run(s, trace[..k]).phase.Lost?
    decreases |trace|
  {
    var s1 := Step(s, trace[0]);
    var rest := trace[1..];
    assert Run(s, trace) == Run(s1, rest);
    if |trace| > 1 {
      assert s1.phase == (if s.phase.Creating? then Creating(s.phase.attempts + 1) else Connecting(s.phase.attempts + 1));
      GiveUp(s1, rest);
      forall k | 1 <= k < |trace|
        ensures !Run(s, trace[..k]).phase.Lost?
      {
        var prefix := trace[..k];
        assert prefix[0] == trace[0];
        assert prefix[1..] == rest[..k - 1];
        assert Run(s, prefix) == Run(s1, rest[..k - 1]);
        if k == 1 {
          assert rest[..0] == [];
        }
      }
    }
  }

  /**
   * What a run from the start hands over: a result only once the loop has
   * passed the last second of the hour, and then every slot is either
   * still the `calloc` sentinel or holds the registers of a read that was
   * written to it.
   */
  lemma HourOutcome(trace: seq<Event>)
    ensures var r := Run(Start(true, true, true).value, trace);
      Result(r).Some? ==> NO_DATEN <= r.sekunden <= NO_DATEN + 2 * NEUVERBIND_AKZEPT
    ensures Accounted(Run(Start(true, true, true).value, trace), Writes(Start(true, true, true).value, trace))
  {
    var s0 := Start(true, true, true).value;
    var r := Run(s0, trace);
    var w := Writes(s0, trace);
    RunInv(s0, trace);
    WritesUntouched(s0, trace);
    WritesLand(s0, trace);
    forall i | 0 <= i < NO_DATEN && r.slots[i] != Cleared()
      ensures exists j :: 0 <= j < |w| && w[j].slot == i && r.slots[i] == w[j].value
    {
      assert s0.slots[i] == Cleared();
      assert !NotWritten(w, i);
      var j :| 0 <= j < |w| && w[j].slot == i;
      assert r.slots[w[j].slot] == w[j].value;
    }
  }

  /** Every slot is the sentinel or holds the value of a write to it. */
  predicate Accounted(r: State, w: seq<Write>)
    requires WellFormed(r)
  {
    forall i :: 0 <= i < NO_DATEN ==>
      r.slots[i] == Cleared() || exists j :: 0 <= j < |w| && w[j].slot == i && r.slots[i] == w[j].value
  }

  /** Lost and Finished are final: no further iteration changes anything. */
  lemma {:induction false} Final(s: State, trace: seq<Event>)
    requires WellFormed(s) && (s.phase.Lost? || s.phase.Finished?)
    ensures Run(s, trace) == s
    decreases |trace|
  {
    if trace != [] {
      Final(Step(s, trace[0]), trace[1..]);
    }
  }
}

=== FILE: decimal.dfy ===
/**
 * The decimal conversions of C's `printf` family that the program uses to
 * build table names and time keys: `%d` of an int, and `%0Nd` / `%0Nzu`,
 * which pad with leading zeros to at least N characters (a minus sign
 * counting towards the width) and never truncate a longer number.
 */
module Decimal {

  predicate IsDigit(c: char) { '0' <= c <= '9' }

  predicate AllDigits(s: string)
  {
    forall k :: 0 <= k < |s| ==> IsDigit(s[k])
  }

  function DigitChar(d: nat): (c: char)
    requires d < 10
    ensures IsDigit(c)
  {
    ('0' as int + d) as char
  }

  function DigitValue(c: char): (d: nat)
    requires IsDigit(c)
    ensures d < 10 && DigitChar(d) == c
  {
    c as int - '0' as int
  }

  function Pow10(k: nat): (p: nat)
    ensures p >= 1
  {
    if k == 0 then 1 else 10 * Pow10(k - 1)
  }

  /** The shortest decimal representation of n, as `%d` prints it. */
  function Digits(n: nat): (s: string)
    ensures |s| >= 1 && AllDigits(s)
    decreases n
  {
    if n < 10 then [DigitChar(n)] else Digits(n / 10) + [DigitChar(n % 10)]
  }

  /** The number a string of digits denotes. */
  function ValueOf(s: string): nat
    requires AllDigits(s)
    decreases |s|
  {
    if s == [] then 0 else 10 * ValueOf(s[..|s| - 1]) + DigitValue(s[|s| - 1])
  }

  function Zeros(k: nat): (s: string)
    ensures |s| == k && AllDigits(s)
  {
    seq(k, _ => '0')
  }

  /** `printf("%0*d", width, n)`: sign, then zero padding, then the digits. */
  function PadZero(n: int, width: nat): string
  {
    if n < 0 then
      var ds := Digits(-n);
      "-" + Zeros(if |ds| + 1 < width then width - 1 - |ds| else 0) + ds
    else
      var ds := Digits(n);
      Zeros(if |ds| < width then width - |ds| else 0) + ds
  }

  /** Reading the digits back gives the number. */
  lemma {:induction false} ValueOfDigits(n: nat)
    ensures ValueOf(Digits(n)) == n
    decreases n
  {
    if n >= 10 {
      var s := Digits(n);
      ValueOfDigits(n / 10);
      assert s[..|s| - 1] == Digits(n / 10);
    }
  }

  /** The number of digits of n is exactly k when 10^(k-1) <= n < 10^k. */
  lemma {:induction false} DigitsLength(n: nat, k: nat)
    requires 1 <= k && n < Pow10(k)
    ensures |Digits(n)| <= k
    ensures k >= 2 && Pow10(k - 1) <= n ==> |Digits(n)| == k
    decreases k
  {
    if n >= 10 {
      assert k >= 2;
      DigitsLength(n / 10, k - 1);
    } else if k >= 2 {
      assert Pow10(k - 1) >= 10 by { Pow10Grows(k - 1); }
    }
  }

  lemma {:induction false} Pow10Grows(k: nat)
    requires k >= 1
    ensures Pow10(k) >= 10
  {
    if k > 1 {
      Pow10Grows(k - 1);
    }
  }

  /** Leading zeros do not change the value of a digit string. */
  lemma {:induction false} ValueOfPadded(k: nat, s: string)
    requires AllDigits(s)
    ensures AllDigits(Zeros(k) + s) && ValueOf(Zeros(k) + s) == ValueOf(s)
    decreases |s|
  {
    var z := Zeros(k) + s;
    if s == [] {
      assert z == Zeros(k);
      ValueOfZeros(k);
    } else {
      var init := s[..|s| - 1];
      ValueOfPadded(k, init);
      assert z[..|z| - 1] == Zeros(k) + init;
      assert z[|z| - 1] == s[|s| - 1];
    }
  }

  lemma {:induction false} ValueOfZeros(k: nat)
    ensures ValueOf(Zeros(k)) == 0
    decreases k
  {
    if k > 0 {
      assert Zeros(k)[..k - 1] == Zeros(k - 1);
      ValueOfZeros(k - 1);
    }
  }

  /**
   * A non-negative number below 10^width is printed in exactly `width`
   * digit characters, and reading them back gives the number.
   */
  lemma PadZeroFixed(n: int, width: nat)
    requires 1 <= width && 0 <= n < Pow10(width)
    ensures |PadZero(n, width)| == width && AllDigits(PadZero(n, width))
    ensures ValueOf(PadZero(n, width)) == n
  {
    DigitsLength(n, width);
    ValueOfDigits(n);
    ValueOfPadded(width - |Digits(n)|, Digits(n));
  }

  /**
   * A number below 10^k in magnitude is printed in at most k+1 characters
   * (sign included) for any width up to k+1, and a non-negative one in at
   * most k for any width up to k.
   */
  lemma PadZeroLength(n: int, width: nat, k: nat)
    requires 1 <= k && 0 - Pow10(k) < n < Pow10(k) && width <= k + 1
    ensures |PadZero(n, width)| <= k + 1
    ensures n >= 0 && width <= k ==> |PadZero(n, width)| <= k
  {
    if n < 0 {
      DigitsLength(-n, k);
    } else {
      DigitsLength(n, k);
    }
  }
}

=== FILE: identity.dfy ===
/**
 * The identity block (`s10konstanten`) and its one-time read at start-up
 * (`IdentifikationsblockAuslesenModbus`): 67 registers from address 0, the
 * 64 text registers byte-swapped to host order, then the whole block copied
 * byte for byte into the record.
 */
module IdentityBlock {
  import opened Words
  import opened Layout
  import opened Settings
  import opened Modbus
  import opened Wrappers

  /**
   * The fields of `s10konstanten`. The four texts are `char[32]` arrays,
   * kept here as their 32 raw bytes; they need not be NUL-terminated.
   */
  datatype Identity = Identity(
    magic: u16, mbMinor: byte, mbMajor: byte, reg: u16,
    hersteller: seq<byte>, modell: seq<byte>, seriennr: seq<byte>, firmware: seq<byte>)

  /** Index of the first register of the texts: everything from here on is swapped. */
  const FIRST_TEXT_REGISTER: nat := 3

  /** Registers per text field: 32 characters, two per register. */
  const TEXT_REGISTERS: nat := 16

  /**
   * The record layout: the numeric fields fill the first three registers and
   * the texts start at byte 6, so they occupy exactly registers 3..66, the
   * range the read byte-swaps; the record is 134 bytes, the 67 registers read.
   */
  lemma StructLayout()
    ensures Offset(S10Konstanten, 0) == 0 && Offset(S10Konstanten, 1) == 2
    ensures Offset(S10Konstanten, 2) == 3 && Offset(S10Konstanten, 3) == 4
    ensures Offset(S10Konstanten, 4) == 2 * FIRST_TEXT_REGISTER
    ensures Offset(S10Konstanten, 5) == 2 * (FIRST_TEXT_REGISTER + TEXT_REGISTERS)
    ensures Offset(S10Konstanten, 6) == 2 * (FIRST_TEXT_REGISTER + 2 * TEXT_REGISTERS)
    ensures Offset(S10Konstanten, 7) == 2 * (FIRST_TEXT_REGISTER + 3 * TEXT_REGISTERS)
    ensures DataEnd(S10Konstanten) == 2 * IDENTIFIKREGISTER
    ensures SizeOf(S10Konstanten) == 2 * IDENTIFIKREGISTER
  {
    assert Offset(S10Konstanten, 1) == 2;
    assert Offset(S10Konstanten, 2) == 3;
    assert Offset(S10Konstanten, 3) == 4;
    assert Offset(S10Konstanten, 4) == 6;
    assert Offset(S10Konstanten, 5) == 38;
    assert Offset(S10Konstanten, 6) == 70;
    assert Offset(S10Konstanten, 7) == 102;
    assert MaxAlignment(S10Konstanten, 4) == 2;
    assert MaxAlignment(S10Konstanten, 8) == 2;
  }

  /** The registers after the swap loop: 0..2 as read, 3..66 through `be16toh`. */
  function SwapTexts(regs: seq<u16>, o: ByteOrder): (fixed: seq<u16>)
    ensures |fixed| == |regs|
  {
    seq(|regs|, i requires 0 <= i < |regs| =>
      if i < FIRST_TEXT_REGISTER then regs[i] else Be16ToH(regs[i], o))
  }

  /** `memcpy` of the 67 (already swapped) registers into the record. */
  function CopyIdentity(fixed: seq<u16>, o: ByteOrder): Identity
    requires |fixed| == IDENTIFIKREGISTER
  {
    var mem := Image(fixed, o);
    Identity(LoadU16(mem, 0, o), mem[2], mem[3], LoadU16(mem, 4, o),
             mem[6..38], mem[38..70], mem[70..102], mem[102..134])
  }

  /** The record the start-up read produces from the registers the device sent. */
  function DecodeIdentity(regs: seq<u16>, o: ByteOrder): Identity
    requires |regs| == IDENTIFIKREGISTER
  {
    CopyIdentity(SwapTexts(regs, o), o)
  }

  /**
   * The characters of a text of 16 registers starting at `first`: each
   * register gives its most significant byte first, as sent on the wire.
   */
  function TextBytes(regs: seq<u16>, first: nat): (text: seq<byte>)
    requires first + TEXT_REGISTERS <= |regs|
    ensures |text| == 2 * TEXT_REGISTERS
  {
    seq(2 * TEXT_REGISTERS, j requires 0 <= j < 2 * TEXT_REGISTERS =>
      if j % 2 == 0 then Hi(regs[first + j / 2]) else Lo(regs[first + j / 2]))
  }

  /** One byte of the memory image of the swapped block, in terms of the raw registers. */
  lemma SwappedByte(regs: seq<u16>, o: ByteOrder, i: nat)
    requires |regs| == IDENTIFIKREGISTER
    requires 2 * FIRST_TEXT_REGISTER <= i < 2 * IDENTIFIKREGISTER
    ensures Image(SwapTexts(regs, o), o)[i] ==
              if i % 2 == 0 then Hi(regs[i / 2]) else Lo(regs[i / 2])
  {
    ImageByte(SwapTexts(regs, o), o, i);
    Be16ToHStoresBigEndian(regs[i / 2], o);
  }

  /** A text field of the record, read from the swapped block. */
  lemma TextField(regs: seq<u16>, o: ByteOrder, first: nat)
    requires |regs| == IDENTIFIKREGISTER
    requires FIRST_TEXT_REGISTER <= first && first + TEXT_REGISTERS <= IDENTIFIKREGISTER
    ensures Image(SwapTexts(regs, o), o)[2 * first..2 * (first + TEXT_REGISTERS)] == TextBytes(regs, first)
  {
    var mem := Image(SwapTexts(regs, o), o);
    var text := mem[2 * first..2 * (first + TEXT_REGISTERS)];
    forall j | 0 <= j < 2 * TEXT_REGISTERS
      ensures text[j] == TextBytes(regs, first)[j]
    {
      SwappedByte(regs, o, 2 * first + j);
      assert (2 * first + j) / 2 == first + j / 2;
      assert (2 * first + j) % 2 == j % 2;
    }
  }

  /**
   * What the decoded record holds: magic and register count are registers 0
   * and 2 unchanged, the protocol version bytes are the two bytes of
   * register 1 in host memory order, and every text is the big-endian bytes
   * of its 16 registers, the same on every host.
   */
  lemma DecodeIdentityFields(regs: seq<u16>, o: ByteOrder)
    requires |regs| == IDENTIFIKREGISTER
    ensures DecodeIdentity(regs, o).magic == regs[0]
    ensures DecodeIdentity(regs, o).mbMinor == StoredByte(regs[1], o, 0)
    ensures DecodeIdentity(regs, o).mbMajor == StoredByte(regs[1], o, 1)
    ensures DecodeIdentity(regs, o).reg == regs[2]
    ensures DecodeIdentity(regs, o).hersteller == TextBytes(regs, 3)
    ensures DecodeIdentity(regs, o).modell == TextBytes(regs, 19)
    ensures DecodeIdentity(regs, o).seriennr == TextBytes(regs, 35)
    ensures DecodeIdentity(regs, o).firmware == TextBytes(regs, 51)
  {
    var fixed := SwapTexts(regs, o);
    LoadImage(fixed, o, 0);
    LoadImage(fixed, o, 2);
    ImageByte(fixed, o, 2);
    ImageByte(fixed, o, 3);
    TextField(regs, o, 3);
    TextField(regs, o, 19);
    TextField(regs, o, 35);
    TextField(regs, o, 51);
  }

  /** The text fields come out the same whatever the byte order of the host. */
  lemma TextsHostIndependent(regs: seq<u16>)
    requires |regs| == IDENTIFIKREGISTER
    ensures DecodeIdentity(regs, LittleEndian).hersteller == DecodeIdentity(regs, BigEndian).hersteller
    ensures DecodeIdentity(regs, LittleEndian).modell == DecodeIdentity(regs, BigEndian).modell
    ensures DecodeIdentity(regs, LittleEndian).seriennr == DecodeIdentity(regs, BigEndian).seriennr
    ensures DecodeIdentity(regs, LittleEndian).firmware == DecodeIdentity(regs, BigEndian).firmware
  {
    DecodeIdentityFields(regs, LittleEndian);
    DecodeIdentityFields(regs, BigEndian);
  }

  /** The 16 registers that carry a 32-byte text, two characters each. */
  function TextRegisters(text: seq<byte>): (regs: seq<u16>)
    requires |text| == 2 * TEXT_REGISTERS
    ensures |regs| == TEXT_REGISTERS
  {
    seq(TEXT_REGISTERS, k requires 0 <= k < TEXT_REGISTERS => Word(text[2 * k], text[2 * k + 1]))
  }

  /** Each text field of the record holds exactly the 32 bytes of its 16 registers. */
  predicate FieldsSized(id: Identity)
  {
    && |id.hersteller| == 2 * TEXT_REGISTERS && |id.modell| == 2 * TEXT_REGISTERS
    && |id.seriennr| == 2 * TEXT_REGISTERS && |id.firmware| == 2 * TEXT_REGISTERS
  }

  /** The registers a device would send for a given identity. */
  function EncodeIdentity(id: Identity, o: ByteOrder): (regs: seq<u16>)
    requires FieldsSized(id)
    ensures |regs| == IDENTIFIKREGISTER
  {
    [id.magic, StoredWord(id.mbMinor, id.mbMajor, o), id.reg]
      + TextRegisters(id.hersteller) + TextRegisters(id.modell)
      + TextRegisters(id.seriennr) + TextRegisters(id.firmware)
  }

  /** The characters carried by the registers of a text are that text. */
  lemma TextBytesOfRegisters(regs: seq<u16>, first: nat, text: seq<byte>)
    requires first + TEXT_REGISTERS <= |regs| && |text| == 2 * TEXT_REGISTERS
    requires regs[first..first + TEXT_REGISTERS] == TextRegisters(text)
    ensures TextBytes(regs, first) == text
  {
    forall j | 0 <= j < 2 * TEXT_REGISTERS
      ensures TextBytes(regs, first)[j] == text[j]
    {
      var k := j / 2;
      assert regs[first + k] == TextRegisters(text)[k];
      assert j == 2 * k || j == 2 * k + 1;
    }
  }

  /** The registers of the characters a text's registers carry are those registers. */
  lemma RegistersOfTextBytes(regs: seq<u16>, first: nat)
    requires first + TEXT_REGISTERS <= |regs|
    ensures TextRegisters(TextBytes(regs, first)) == regs[first..first + TEXT_REGISTERS]
  {
    var text := TextBytes(regs, first);
    forall k | 0 <= k < TEXT_REGISTERS
      ensures TextRegisters(text)[k] == regs[first + k]
    {
      assert text[2 * k] == Hi(regs[first + k]);
      assert text[2 * k + 1] == Lo(regs[first + k]);
      WordOfBytes(regs[first + k]);
    }
  }

  /** Decoding the registers of an identity gives the identity back. */
  lemma DecodeEncodeIdentity(id: Identity, o: ByteOrder)
    requires FieldsSized(id)
    ensures DecodeIdentity(EncodeIdentity(id, o), o) == id
  {
    var regs := EncodeIdentity(id, o);
    DecodeIdentityFields(regs, o);
    assert regs[3..19] == TextRegisters(id.hersteller);
    assert regs[19..35] == TextRegisters(id.modell);
    assert regs[35..51] == TextRegisters(id.seriennr);
    assert regs[51..67] == TextRegisters(id.firmware);
    TextBytesOfRegisters(regs, 3, id.hersteller);
    TextBytesOfRegisters(regs, 19, id.modell);
    TextBytesOfRegisters(regs, 35, id.seriennr);
    TextBytesOfRegisters(regs, 51, id.firmware);
  }

  /** An identity whose fields are those of a register block encodes to that block. */
  lemma EncodeFields(regs: seq<u16>, id: Identity, o: ByteOrder)
    requires |regs| == IDENTIFIKREGISTER
    requires id.magic == regs[0] && id.reg == regs[2]
    requires StoredWord(id.mbMinor, id.mbMajor, o) == regs[1]
    requires id.hersteller == TextBytes(regs, 3) && id.modell == TextBytes(regs, 19)
    requires id.seriennr == TextBytes(regs, 35) && id.firmware == TextBytes(regs, 51)
    ensures FieldsSized(id)
    ensures EncodeIdentity(id, o) == regs
  {
    RegistersOfTextBytes(regs, 3);
    RegistersOfTextBytes(regs, 19);
    RegistersOfTextBytes(regs, 35);
    RegistersOfTextBytes(regs, 51);
    Reassemble(regs, [id.magic, StoredWord(id.mbMinor, id.mbMajor, o), id.reg],
      TextRegisters(id.hersteller), TextRegisters(id.modell),
      TextRegisters(id.seriennr), TextRegisters(id.firmware));
  }

  /** The identity block is its three header registers followed by its four texts. */
  lemma Reassemble(regs: seq<u16>, head: seq<u16>, a: seq<u16>, b: seq<u16>, c: seq<u16>, d: seq<u16>)
    requires |regs| == IDENTIFIKREGISTER && |head| == 3
    requires head[0] == regs[0] && head[1] == regs[1] && head[2] == regs[2]
    requires a == regs[3..19] && b == regs[19..35] && c == regs[35..51] && d == regs[51..67]
    ensures head + a + b + c + d == regs
  {
    assert head == regs[..3];
    assert regs == regs[..3] + regs[3..19] + regs[19..35] + regs[35..51] + regs[51..67];
  }

  /** Encoding a decoded identity gives back the registers that were read. */
  lemma EncodeDecodeIdentity(regs: seq<u16>, o: ByteOrder)
    requires |regs| == IDENTIFIKREGISTER
    ensures FieldsSized(DecodeIdentity(regs, o))
    ensures EncodeIdentity(DecodeIdentity(regs, o), o) == regs
  {
    DecodeIdentityFields(regs, o);
    WordOfBytes(regs[1]);
    EncodeFields(regs, DecodeIdentity(regs, o), o);
  }

  /**
   * `IdentifikationsblockAuslesenModbus`: create a context, connect, read the
   * 67 identity registers, swap the text registers in place and copy the
   * block into the record. Any failure on the way gives no record.
   */
  method ReadIdentity(created: bool, connected: bool, read: ReadOutcome, o: ByteOrder)
    returns (id: Option<Identity>)
    ensures id.Some? <==> created && connected && Delivered(read, IDENTIFIKREGISTER)
    ensures id.Some? ==> id.value == DecodeIdentity(read.regs, o)
  {
    if !created || !connected || !Delivered(read, IDENTIFIKREGISTER) {
      return None;
    }
    var rohwerte := read.regs;
    var i := FIRST_TEXT_REGISTER;
    while i < IDENTIFIKREGISTER
      invariant FIRST_TEXT_REGISTER <= i <= IDENTIFIKREGISTER
      invariant |rohwerte| == IDENTIFIKREGISTER
      invariant forall k :: 0 <= k < i ==> rohwerte[k] == SwapTexts(read.regs, o)[k]
      invariant forall k :: i <= k < IDENTIFIKREGISTER ==> rohwerte[k] == read.regs[k]
    {
      rohwerte := rohwerte[i := Be16ToH(rohwerte[i], o)];
      i := i + 1;
    }
    assert rohwerte == SwapTexts(read.regs, o);
    id := Some(CopyIdentity(rohwerte, o));
  }
}

=== FILE: layout.dfy ===
/**
 * The two register records of the program's header, described by the C
 * types of their fields, and the C rules that place those fields in memory:
 * every field starts at the next multiple of its alignment, and `sizeof`
 * rounds the end of the last field up to the largest alignment.
 */
module Layout {

  /** The C types that occur in the register records. */
  datatype CType = Int32 | UInt16 | Int16 | UInt8 | Chars(length: nat)

  /** The two records: `s10daten` (measurements) and `s10konstanten` (identity). */
  datatype Struct = S10Daten | S10Konstanten

  function Size(t: CType): nat
  {
    match t
    case Int32 => 4
    case UInt16 => 2
    case Int16 => 2
    case UInt8 => 1
    case Chars(n) => n
  }

  function Alignment(t: CType): (a: nat)
    ensures a >= 1
  {
    match t
    case Int32 => 4
    case UInt16 => 2
    case Int16 => 2
    case UInt8 => 1
    case Chars(_) => 1
  }

  /** The smallest multiple of `a` that is at least `off`. */
  function AlignUp(off: nat, a: nat): nat
    requires a >= 1
  {
    if off % a == 0 then off else off + (a - off % a)
  }

  function FieldCount(s: Struct): nat
  {
    match s
    case S10Daten => 31
    case S10Konstanten => 8
  }

  /**
   * The declared type of field `i`. `s10daten`: seven int32 power flows, two
   * uint8 ratios, uint16 soc/notstr/ems, int16 emsrc, then uint16 emsctrl,
   * wall1..wall8, Vdc1..Vdc3, Idc1..Idc3, Pdc1..Pdc3. `s10konstanten`: uint16
   * magic, uint8 mb_minor and mb_major, uint16 reg, four char[32] texts.
   */
  function FieldType(s: Struct, i: nat): CType
    requires i < FieldCount(s)
  {
    match s
    case S10Daten =>
      if i < 7 then Int32
      else if i < 9 then UInt8
      else if i == 12 then Int16
      else UInt16
    case S10Konstanten =>
      if i == 0 || i == 3 then UInt16
      else if i < 3 then UInt8
      else Chars(32)
  }

  /** Byte offset of field `i`: the end of field i-1 rounded up to field i's alignment. */
  function Offset(s: Struct, i: nat): nat
    requires i < FieldCount(s)
  {
    if i == 0 then 0
    else AlignUp(Offset(s, i - 1) + Size(FieldType(s, i - 1)), Alignment(FieldType(s, i)))
  }

  /** One past the last byte of the last field. */
  function DataEnd(s: Struct): nat
  {
    var last := FieldCount(s) - 1;
    Offset(s, last) + Size(FieldType(s, last))
  }

  /** The largest alignment among the first `n` fields (1 when n is 0). */
  function MaxAlignment(s: Struct, n: nat): (a: nat)
    requires n <= FieldCount(s)
    ensures a >= 1
  {
    if n == 0 then 1 else Max(Alignment(FieldType(s, n - 1)), MaxAlignment(s, n - 1))
  }

  function Max(a: nat, b: nat): nat
  {
    if a > b then a else b
  }

  /** `sizeof` of the record. */
  function SizeOf(s: Struct): nat
  {
    AlignUp(DataEnd(s), MaxAlignment(s, FieldCount(s)))
  }
}

=== FILE: measurement.dfy ===
/**
 * One second of power-flow readings (`s10daten`) and how it is decoded from
 * the 37 measurement registers: the registers are copied byte for byte into
 * the struct, so every field reads the bytes that lie at its offset.
 */
module MeasurementBlock {
  import opened Words
  import opened Layout
  import opened Settings

  /**
   * The fields of `s10daten` in declaration order. The seven power flows are
   * int32, the self-consumption and autonomy ratios uint8, `emsrc` is the only
   * int16, every other field is uint16.
   */
  datatype Measurement = Measurement(
    pPv: i32, pBat: i32, pHaus: i32, pNetz: i32, pExt: i32, pWall: i32, pPvWall: i32,
    eigen: byte, autarkie: byte,
    soc: u16, notstr: u16, ems: u16, emsrc: i16, emsctrl: u16,
    wall1: u16, wall2: u16, wall3: u16, wall4: u16,
    wall5: u16, wall6: u16, wall7: u16, wall8: u16,
    vdc1: u16, vdc2: u16, vdc3: u16,
    idc1: u16, idc2: u16, idc3: u16,
    pdc1: u16, pdc2: u16, pdc3: u16)

  /**
   * The struct layout `Decode` relies on: the offsets it reads from are the
   * ones the C layout rules give (no padding between fields), the fields end
   * after 74 bytes, exactly the 37 registers a measurement read delivers, and
   * `sizeof` adds two bytes of trailing padding that the copy never touches.
   */
  lemma StructLayout()
    ensures Offset(S10Daten, 0) == 0 && Offset(S10Daten, 1) == 4 && Offset(S10Daten, 2) == 8 && Offset(S10Daten, 3) == 12
    ensures Offset(S10Daten, 4) == 16 && Offset(S10Daten, 5) == 20 && Offset(S10Daten, 6) == 24 && Offset(S10Daten, 7) == 28
    ensures Offset(S10Daten, 8) == 29 && Offset(S10Daten, 9) == 30 && Offset(S10Daten, 10) == 32 && Offset(S10Daten, 11) == 34
    ensures Offset(S10Daten, 12) == 36 && Offset(S10Daten, 13) == 38 && Offset(S10Daten, 14) == 40 && Offset(S10Daten, 15) == 42
    ensures Offset(S10Daten, 16) == 44 && Offset(S10Daten, 17) == 46 && Offset(S10Daten, 18) == 48 && Offset(S10Daten, 19) == 50
    ensures Offset(S10Daten, 20) == 52 && Offset(S10Daten, 21) == 54 && Offset(S10Daten, 22) == 56 && Offset(S10Daten, 23) == 58
    ensures Offset(S10Daten, 24) == 60 && Offset(S10Daten, 25) == 62 && Offset(S10Daten, 26) == 64 && Offset(S10Daten, 27) == 66
    ensures Offset(S10Daten, 28) == 68 && Offset(S10Daten, 29) == 70 && Offset(S10Daten, 30) == 72
    ensures DataEnd(S10Daten) == 2 * LEISTUNGSREGISTER
  {
  }

  /** The widest field of `s10daten` is an int32, so the record is 4-aligned. */
  lemma StructAlignment()
    ensures MaxAlignment(S10Daten, FieldCount(S10Daten)) == 4
  {
    assert MaxAlignment(S10Daten, 1) == 4;
    assert MaxAlignment(S10Daten, 2) == 4;
    assert MaxAlignment(S10Daten, 3) == 4;
    assert MaxAlignment(S10Daten, 4) == 4;
    assert MaxAlignment(S10Daten, 5) == 4;
    assert MaxAlignment(S10Daten, 6) == 4;
    assert MaxAlignment(S10Daten, 7) == 4;
    assert MaxAlignment(S10Daten, 8) == 4;
    assert MaxAlignment(S10Daten, 9) == 4;
    assert MaxAlignment(S10Daten, 10) == 4;
    assert MaxAlignment(S10Daten, 11) == 4;
    assert MaxAlignment(S10Daten, 12) == 4;
    assert MaxAlignment(S10Daten, 13) == 4;
    assert MaxAlignment(S10Daten, 14) == 4;
    assert MaxAlignment(S10Daten, 15) == 4;
    assert MaxAlignment(S10Daten, 16) == 4;
    assert MaxAlignment(S10Daten, 17) == 4;
    assert MaxAlignment(S10Daten, 18) == 4;
    assert MaxAlignment(S10Daten, 19) == 4;
    assert MaxAlignment(S10Daten, 20) == 4;
    assert MaxAlignment(S10Daten, 21) == 4;
    assert MaxAlignment(S10Daten, 22) == 4;
    assert MaxAlignment(S10Daten, 23) == 4;
    assert MaxAlignment(S10Daten, 24) == 4;
    assert MaxAlignment(S10Daten, 25) == 4;
    assert MaxAlignment(S10Daten, 26) == 4;
    assert MaxAlignment(S10Daten, 27) == 4;
    assert MaxAlignment(S10Daten, 28) == 4;
    assert MaxAlignment(S10Daten, 29) == 4;
    assert MaxAlignment(S10Daten, 30) == 4;
  }

  /**
   * `sizeof(s10daten)` is 76 on a host that aligns int32 to four bytes: two
   * bytes more than the registers a read copies into the slot.
   */
  lemma StructSize()
    ensures SizeOf(S10Daten) == 2 * LEISTUNGSREGISTER + 2
  {
    StructLayout();
    StructAlignment();
    assert AlignUp(74, 4) == 76;
  }

  /**
   * `memcpy` of the 37 measurement registers into one slot, then reading
   * each field at its offset in host byte order. No byte swapping is done.
   */
  function Decode(regs: seq<u16>, o: ByteOrder): Measurement
    requires |regs| == LEISTUNGSREGISTER
  {
    var mem := Image(regs, o);
    Measurement(
      AsSigned32(LoadU32(mem, 0, o)), AsSigned32(LoadU32(mem, 4, o)),
      AsSigned32(LoadU32(mem, 8, o)), AsSigned32(LoadU32(mem, 12, o)),
      AsSigned32(LoadU32(mem, 16, o)), AsSigned32(LoadU32(mem, 20, o)),
      AsSigned32(LoadU32(mem, 24, o)),
      mem[28], mem[29],
      LoadU16(mem, 30, o), LoadU16(mem, 32, o), LoadU16(mem, 34, o),
      AsSigned16(LoadU16(mem, 36, o)), LoadU16(mem, 38, o),
      LoadU16(mem, 40, o), LoadU16(mem, 42, o), LoadU16(mem, 44, o), LoadU16(mem, 46, o),
      LoadU16(mem, 48, o), LoadU16(mem, 50, o), LoadU16(mem, 52, o), LoadU16(mem, 54, o),
      LoadU16(mem, 56, o), LoadU16(mem, 58, o), LoadU16(mem, 60, o),
      LoadU16(mem, 62, o), LoadU16(mem, 64, o), LoadU16(mem, 66, o),
      LoadU16(mem, 68, o), LoadU16(mem, 70, o), LoadU16(mem, 72, o))
  }

  /**
   * Which register feeds which field: each int32 is assembled from a pair of
   * registers in host order, the two ratio bytes share register 14, and every
   * 16-bit field is one register, unchanged.
   */
  function FromRegisters(regs: seq<u16>, o: ByteOrder): Measurement
    requires |regs| == LEISTUNGSREGISTER
  {
    Measurement(
      AsSigned32(JoinWords(regs[0], regs[1], o)), AsSigned32(JoinWords(regs[2], regs[3], o)),
      AsSigned32(JoinWords(regs[4], regs[5], o)), AsSigned32(JoinWords(regs[6], regs[7], o)),
      AsSigned32(JoinWords(regs[8], regs[9], o)), AsSigned32(JoinWords(regs[10], regs[11], o)),
      AsSigned32(JoinWords(regs[12], regs[13], o)),
      StoredByte(regs[14], o, 0), StoredByte(regs[14], o, 1),
      regs[15], regs[16], regs[17], AsSigned16(regs[18]), regs[19],
      regs[20], regs[21], regs[22], regs[23], regs[24], regs[25], regs[26], regs[27],
      regs[28], regs[29], regs[30],
      regs[31], regs[32], regs[33],
      regs[34], regs[35], regs[36])
  }

  /** The registers a device would send for a given reading: the inverse of `Decode`. */
  function ToRegisters(m: Measurement, o: ByteOrder): (regs: seq<u16>)
    ensures |regs| == LEISTUNGSREGISTER
  {
    var p0 := SplitWords(AsUnsigned32(m.pPv), o);
    var p1 := SplitWords(AsUnsigned32(m.pBat), o);
    var p2 := SplitWords(AsUnsigned32(m.pHaus), o);
    var p3 := SplitWords(AsUnsigned32(m.pNetz), o);
    var p4 := SplitWords(AsUnsigned32(m.pExt), o);
    var p5 := SplitWords(AsUnsigned32(m.pWall), o);
    var p6 := SplitWords(AsUnsigned32(m.pPvWall), o);
    [p0.0, p0.1, p1.0, p1.1, p2.0, p2.1, p3.0, p3.1, p4.0, p4.1, p5.0, p5.1, p6.0, p6.1,
     StoredWord(m.eigen, m.autarkie, o),
     m.soc, m.notstr, m.ems, AsUnsigned16(m.emsrc), m.emsctrl,
     m.wall1, m.wall2, m.wall3, m.wall4, m.wall5, m.wall6, m.wall7, m.wall8,
     m.vdc1, m.vdc2, m.vdc3, m.idc1, m.idc2, m.idc3, m.pdc1, m.pdc2, m.pdc3]
  }

  /** Reading the copied struct agrees with the register-by-register view. */
  lemma DecodeRegisterView(regs: seq<u16>, o: ByteOrder)
    requires |regs| == LEISTUNGSREGISTER
    ensures Decode(regs, o) == FromRegisters(regs, o)
  {
    var mem := Image(regs, o);
    forall k: nat | k < LEISTUNGSREGISTER
      ensures LoadU16(mem, 2 * k, o) == regs[k]
    {
      LoadImage(regs, o, k);
    }
    ImageByte(regs, o, 28);
    ImageByte(regs, o, 29);
  }

  /** Decoding the registers of a reading gives the reading back. */
  lemma DecodeEncode(m: Measurement, o: ByteOrder)
    ensures Decode(ToRegisters(m, o), o) == m
  {
    DecodeRegisterView(ToRegisters(m, o), o);
  }

  /** An int32 assembled from two registers splits back into the same two. */
  lemma Int32RoundTrip(first: u16, second: u16, o: ByteOrder)
    ensures SplitWords(AsUnsigned32(AsSigned32(JoinWords(first, second, o))), o) == (first, second)
  {
    SignedRoundTrip(0, JoinWords(first, second, o));
    SplitJoin(first, second, o);
  }

  /** Encoding a decoded slot gives back the registers that were read. */
  lemma EncodeDecode(regs: seq<u16>, o: ByteOrder)
    requires |regs| == LEISTUNGSREGISTER
    ensures ToRegisters(Decode(regs, o), o) == regs
  {
    DecodeRegisterView(regs, o);
    EncodeRegisterView(regs, o);
  }

  /** Encoding the register-by-register view gives back the registers. */
  lemma EncodeRegisterView(regs: seq<u16>, o: ByteOrder)
    requires |regs| == LEISTUNGSREGISTER
    ensures ToRegisters(FromRegisters(regs, o), o) == regs
  {
    var m := FromRegisters(regs, o);
    Int32RoundTrip(regs[0], regs[1], o);
    Int32RoundTrip(regs[2], regs[3], o);
    Int32RoundTrip(regs[4], regs[5], o);
    Int32RoundTrip(regs[6], regs[7], o);
    Int32RoundTrip(regs[8], regs[9], o);
    Int32RoundTrip(regs[10], regs[11], o);
    Int32RoundTrip(regs[12], regs[13], o);
    WordOfBytes(regs[14]);
    assert StoredWord(m.eigen, m.autarkie, o) == regs[14];
    SignedRoundTrip(regs[18], 0);
    assert ToRegisters(m, o) == [regs[0], regs[1], regs[2], regs[3], regs[4], regs[5], regs[6], regs[7], regs[8], regs[9], regs[10], regs[11], regs[12], regs[13], regs[14], regs[15], regs[16], regs[17], regs[18], regs[19], regs[20], regs[21], regs[22], regs[23], regs[24], regs[25], regs[26], regs[27], regs[28], regs[29], regs[30], regs[31], regs[32], regs[33], regs[34], regs[35], regs[36]];
  }

  /** A slot as `calloc` leaves it: every field zero, the "no data" sentinel. */
  const Zero: Measurement :=
    Measurement(0, 0, 0, 0, 0, 0, 0, 0, 0, 0, 0, 0, 0, 0,
                0, 0, 0, 0, 0, 0, 0, 0, 0, 0, 0, 0, 0, 0, 0, 0, 0)

  /** The registers of a slot as `calloc` leaves it: all bytes zero. */
  function Cleared(): (b: seq<u16>)
    ensures |b| == LEISTUNGSREGISTER && forall k :: 0 <= k < |b| ==> b[k] == 0
  {
    seq(LEISTUNGSREGISTER, _ => 0)
  }

  /** The sentinel is what a device sending only zero registers produces. */
  lemma ZeroRegisters(o: ByteOrder)
    ensures ToRegisters(Zero, o) == Cleared()
  {
    assert ToRegisters(Zero, o) == [0, 0, 0, 0, 0, 0, 0, 0, 0, 0, 0, 0, 0, 0, 0, 0, 0, 0, 0, 0, 0, 0, 0, 0, 0, 0, 0, 0, 0, 0, 0, 0, 0, 0, 0, 0, 0];
  }

  /**
   * A read decodes to the sentinel exactly when every register it returned
   * was zero; such a second cannot be told apart from a missing one.
   */
  lemma DecodeZero(regs: seq<u16>, o: ByteOrder)
    requires |regs| == LEISTUNGSREGISTER
    ensures Decode(regs, o) == Zero <==> regs == Cleared()
  {
    ZeroRegisters(o);
    if Decode(regs, o) == Zero {
      EncodeDecode(regs, o);
    } else if regs == Cleared() {
      DecodeEncode(Zero, o);
    }
  }

  /**
   * The skip test of the insert pass: all fields except `emsrc` and
   * `emsctrl` are zero.
   */
  predicate IsBlank(m: Measurement)
  {
    && m.pPv == 0 && m.pBat == 0 && m.pHaus == 0 && m.pNetz == 0 && m.pExt == 0
    && m.pWall == 0 && m.pPvWall == 0 && m.eigen == 0 && m.autarkie == 0
    && m.soc == 0 && m.notstr == 0 && m.ems == 0
    && m.wall1 == 0 && m.wall2 == 0 && m.wall3 == 0 && m.wall4 == 0
    && m.wall5 == 0 && m.wall6 == 0 && m.wall7 == 0 && m.wall8 == 0
    && m.vdc1 == 0 && m.vdc2 == 0 && m.vdc3 == 0
    && m.idc1 == 0 && m.idc2 == 0 && m.idc3 == 0
    && m.pdc1 == 0 && m.pdc2 == 0 && m.pdc3 == 0
  }

  /**
   * The skip test looks at every register except 18 and 19 (`emsrc` and
   * `emsctrl`): a slot counts as blank exactly when all the others were read
   * as zero, whatever those two hold.
   */
  lemma BlankRegisters(regs: seq<u16>, o: ByteOrder)
    requires |regs| == LEISTUNGSREGISTER
    ensures IsBlank(Decode(regs, o)) <==>
      forall k :: 0 <= k < LEISTUNGSREGISTER && k != 18 && k != 19 ==> regs[k] == 0
  {
    DecodeRegisterView(regs, o);
    BlankView(regs, o);
  }

  /** `BlankRegisters` on the register-by-register view. */
  lemma BlankView(regs: seq<u16>, o: ByteOrder)
    requires |regs| == LEISTUNGSREGISTER
    ensures IsBlank(FromRegisters(regs, o)) <==>
      forall k :: 0 <= k < LEISTUNGSREGISTER && k != 18 && k != 19 ==> regs[k] == 0
  {
    ZeroPair(regs[0], regs[1], o);
    ZeroPair(regs[2], regs[3], o);
    ZeroPair(regs[4], regs[5], o);
    ZeroPair(regs[6], regs[7], o);
    ZeroPair(regs[8], regs[9], o);
    ZeroPair(regs[10], regs[11], o);
    ZeroPair(regs[12], regs[13], o);
    ZeroBytes(regs[14], o);
    if IsBlank(FromRegisters(regs, o)) {
      forall k | 0 <= k < LEISTUNGSREGISTER && k != 18 && k != 19
        ensures regs[k] == 0
      {
        if k < 15 {
        } else if k < 18 {
        } else if k < 28 {
        } else {
        }
      }
    }
  }

  /** An int32 assembled from two registers is zero exactly when both are. */
  lemma ZeroPair(first: u16, second: u16, o: ByteOrder)
    ensures AsSigned32(JoinWords(first, second, o)) == 0 <==> first == 0 && second == 0
  {
  }

  /** Both bytes of a register are zero exactly when the register is. */
  lemma ZeroBytes(v: u16, o: ByteOrder)
    ensures StoredByte(v, o, 0) == 0 && StoredByte(v, o, 1) == 0 <==> v == 0
  {
  }

  /**
   * The 29 values one INSERT stores for a slot, in column order (Ppv, Pbat,
   * Phaus, Pnetz, Pext, Pwall, Ppvwall, eigen, autarkie, soc, notstrom,
   * status, wall1..wall8, Vdc1..Vdc3, Idc1..Idc3, Pdc1..Pdc3). `emsrc` and
   * `emsctrl` have no column.
   */
  function Row(m: Measurement): (row: seq<int>)
    ensures |row| == 29
  {
    [m.pPv, m.pBat, m.pHaus, m.pNetz, m.pExt, m.pWall, m.pPvWall,
     m.eigen, m.autarkie, m.soc, m.notstr, m.ems,
     m.wall1, m.wall2, m.wall3, m.wall4, m.wall5, m.wall6, m.wall7, m.wall8,
     m.vdc1, m.vdc2, m.vdc3, m.idc1, m.idc2, m.idc3, m.pdc1, m.pdc2, m.pdc3]
  }

  /** The condition of the cleanup DELETE: every column of the row is zero. */
  predicate IsZeroRow(row: seq<int>)
  {
    forall j :: 0 <= j < |row| ==> row[j] == 0
  }

  /**
   * The skip test and the cleanup condition agree: a slot is skipped exactly
   * when the row it would produce is one the cleanup deletes. The sentinel
   * is skipped, and `emsrc`/`emsctrl` play no part in the test.
   */
  lemma BlankIffZeroRow(m: Measurement, rc: i16, ctrl: u16)
    ensures IsBlank(m) <==> IsZeroRow(Row(m))
    ensures IsBlank(Zero)
    ensures IsBlank(m) <==> IsBlank(m.(emsrc := rc, emsctrl := ctrl))
  {
    var row := Row(m);
    if IsZeroRow(row) {
      assert row[0] == 0 && row[1] == 0 && row[2] == 0 && row[3] == 0 && row[4] == 0;
      assert row[5] == 0 && row[6] == 0 && row[7] == 0 && row[8] == 0 && row[9] == 0;
      assert row[10] == 0 && row[11] == 0 && row[12] == 0 && row[13] == 0 && row[14] == 0;
      assert row[15] == 0 && row[16] == 0 && row[17] == 0 && row[18] == 0 && row[19] == 0;
      assert row[20] == 0 && row[21] == 0 && row[22] == 0 && row[23] == 0 && row[24] == 0;
      assert row[25] == 0 && row[26] == 0 && row[27] == 0 && row[28] == 0;
    }
  }
}

=== FILE: modbus.dfy ===
/**
 * The boundary to the Modbus-TCP client library. Creating a context,
 * connecting and reading registers are done by the library; the model only
 * sees their outcomes, supplied by the environment.
 */
module Modbus {
  import opened Words

  /**
   * What `modbus_read_registers` delivered: the registers it returned (their
   * number is its return value), or an error (return value -1).
   */
  datatype ReadOutcome = Registers(regs: seq<u16>) | ReadError

  /**
   * The program accepts a read only when the library reports exactly the
   * number of registers that were asked for.
   */
  predicate Delivered(read: ReadOutcome, count: nat)
  {
    read.Registers? && |read.regs| == count
  }
}

=== FILE: persistence.dfy ===
/**
 * Storing an hour of readings in the database (`LeistungsdatenEintragenSQL`)
 * and creating the day's table (`IdentifikationsblockEintragenSQL`).
 *
 * Every day has a table named `YYYY_MM_DD`; its primary key is the time
 * of day `HH:MM:SS`. The insert pass walks the 3600 slots of the hour,
 * skips those that still look like the `calloc` sentinel, and sends one
 * INSERT per remaining slot, ignoring its outcome: an INSERT never replaces
 * an existing row. A final DELETE removes every row whose columns are all
 * zero. The database is a map from table name to table, a table a map
 * from time key to row; which statements the server refuses is an input.
 */
module Persistence {
  import opened Words
  import opened Settings
  import opened Decimal
  import opened MeasurementBlock
  import opened Wrappers

  /** The `struct tm` fields the program formats (C `int`). */
  datatype Tm = Tm(year: i32, mon: i32, mday: i32, hour: i32)

  type Columns = seq<int>
  type Table = map<string, Columns>
  type Db = map<string, Table>

  /** The fields of a calendar date in years 0..9999, as `gmtime` produces them. */
  predicate CalendarDate(t: Tm)
  {
    0 <= t.year + 1900 <= 9999 && 0 <= t.mon <= 11 && 1 <= t.mday <= 31
  }

  /** `sprintf(tabellenname, "%04d_%02d_%02d", tm_year + 1900, tm_mon + 1, tm_mday)`. */
  function TableName(t: Tm): string
  {
    PadZero(t.year + 1900, 4) + ['_'] + PadZero(t.mon + 1, 2) + ['_'] + PadZero(t.mday, 2)
  }

  /**
   * `sprintf(zeitpunkt, "%02d:%02zu:%02zu", tm_hour, (cnt - cnt % 60) / 60, cnt % 60)`:
   * the time of day of slot `cnt` of the hour.
   */
  function TimeKey(hour: int, cnt: nat): string
  {
    PadZero(hour, 2) + [':'] + PadZero((cnt - cnt % 60) / 60, 2) + [':'] + PadZero(cnt % 60, 2)
  }

  /** Reads a table name back into (tm_year, tm_mon, tm_mday). */
  function ParseTableName(name: string): Option<(int, int, int)>
  {
    if |name| == 10 && name[4] == '_' && name[7] == '_'
       && AllDigits(name[..4]) && AllDigits(name[5..7]) && AllDigits(name[8..])
    then Some((ValueOf(name[..4]) - 1900, ValueOf(name[5..7]) - 1, ValueOf(name[8..])))
    else None
  }

  /** Reads a time key back into (hour, second of the hour). */
  function ParseTimeKey(key: string): Option<(int, nat)>
  {
    if |key| == 8 && key[2] == ':' && key[5] == ':'
       && AllDigits(key[..2]) && AllDigits(key[3..5]) && AllDigits(key[6..])
       && ValueOf(key[6..]) < 60
    then Some((ValueOf(key[..2]), 60 * ValueOf(key[3..5]) + ValueOf(key[6..])))
    else None
  }

  /** Where the parts of `a + [sep] + b + [sep] + c` lie. */
  lemma Fields(a: string, b: string, c: string, sep: char)
    ensures var s := a + [sep] + b + [sep] + c;
      && |s| == |a| + |b| + |c| + 2
      && s[..|a|] == a && s[|a|] == sep
      && s[|a| + 1..|a| + 1 + |b|] == b && s[|a| + 1 + |b|] == sep
      && s[|a| + |b| + 2..] == c
  {
  }

  /**
   * For a calendar date the table name is ten characters `YYYY_MM_DD`
   * from which the date is read back.
   */
  lemma TableNameRoundTrip(t: Tm)
    requires CalendarDate(t)
    ensures |TableName(t)| == 10
    ensures ParseTableName(TableName(t)) == Some((t.year as int, t.mon as int, t.mday as int))
  {
    assert Pow10(2) == 100 && Pow10(4) == 10000;
    PadZeroFixed(t.year + 1900, 4);
    PadZeroFixed(t.mon + 1, 2);
    PadZeroFixed(t.mday, 2);
    var y, m, d := PadZero(t.year + 1900, 4), PadZero(t.mon + 1, 2), PadZero(t.mday, 2);
    NameLayout(TableName(t), y, m, d);
  }

  /** A name assembled from a four-digit and two two-digit fields parses into them. */
  lemma NameLayout(name: string, y: string, m: string, d: string)
    requires |y| == 4 && |m| == 2 && |d| == 2
    requires AllDigits(y) && AllDigits(m) && AllDigits(d)
    requires name == y + ['_'] + m + ['_'] + d
    ensures |name| == 10
    ensures ParseTableName(name) == Some((ValueOf(y) - 1900, ValueOf(m) - 1, ValueOf(d)))
  {
    Fields(y, m, d, '_');
    ParseDateFields(name, y, m, d);
  }

  /** A string laid out as `YYYY_MM_DD` parses into its three numbers. */
  lemma ParseDateFields(name: string, y: string, m: string, d: string)
    requires |y| == 4 && |m| == 2 && |d| == 2
    requires AllDigits(y) && AllDigits(m) && AllDigits(d)
    requires |name| == 10 && name[4] == '_' && name[7] == '_'
    requires name[..4] == y && name[5..7] == m && name[8..] == d
    ensures ParseTableName(name) == Some((ValueOf(y) - 1900, ValueOf(m) - 1, ValueOf(d)))
  {
  }

  /** A string laid out as `HH:MM:SS` with SS below 60 parses into hour and second of the hour. */
  lemma ParseTimeFields(key: string, h: string, m: string, s: string)
    requires |h| == 2 && |m| == 2 && |s| == 2
    requires AllDigits(h) && AllDigits(m) && AllDigits(s) && ValueOf(s) < 60
    requires |key| == 8 && key[2] == ':' && key[5] == ':'
    requires key[..2] == h && key[3..5] == m && key[6..] == s
    ensures ParseTimeKey(key) == Some((ValueOf(h), 60 * ValueOf(m) + ValueOf(s)))
  {
  }

  /** Two calendar dates share a table exactly when they are the same day. */
  lemma TableNameInjective(t1: Tm, t2: Tm)
    requires CalendarDate(t1) && CalendarDate(t2)
    ensures TableName(t1) == TableName(t2) <==> (t1.year, t1.mon, t1.mday) == (t2.year, t2.mon, t2.mday)
  {
    if TableName(t1) == TableName(t2) {
      TableNameRoundTrip(t1);
      TableNameRoundTrip(t2);
    }
  }

  /** Minute and second of slot `cnt`, each printed in two digits. */
  lemma SlotFields(cnt: nat)
    requires cnt < NO_DATEN
    ensures 0 <= (cnt - cnt % 60) / 60 <= 59 && (cnt - cnt % 60) / 60 == cnt / 60
    ensures |PadZero((cnt - cnt % 60) / 60, 2)| == 2 && |PadZero(cnt % 60, 2)| == 2
    ensures ValueOf(PadZero((cnt - cnt % 60) / 60, 2)) == cnt / 60
    ensures ValueOf(PadZero(cnt % 60, 2)) == cnt % 60
    ensures AllDigits(PadZero((cnt - cnt % 60) / 60, 2)) && AllDigits(PadZero(cnt % 60, 2))
  {
    assert Pow10(2) == 100;
    PadZeroFixed((cnt - cnt % 60) / 60, 2);
    PadZeroFixed(cnt % 60, 2);
  }

  /**
   * For an hour 0..23 and a slot of the hour, the key is eight characters
   * `HH:MM:SS` with minute and second 0..59, and it gives back the hour
   * and the slot.
   */
  lemma TimeKeyRoundTrip(hour: int, cnt: nat)
    requires 0 <= hour <= 23 && cnt < NO_DATEN
    ensures |TimeKey(hour, cnt)| == 8
    ensures ParseTimeKey(TimeKey(hour, cnt)) == Some((hour, cnt))
  {
    assert Pow10(2) == 100;
    PadZeroFixed(hour, 2);
    SlotFields(cnt);
    var h, m, s := PadZero(hour, 2), PadZero((cnt - cnt % 60) / 60, 2), PadZero(cnt % 60, 2);
    KeyLayout(TimeKey(hour, cnt), h, m, s);
  }

  /** A key assembled from three two-digit fields, the last below 60, parses into them. */
  lemma KeyLayout(key: string, h: string, m: string, s: string)
    requires |h| == 2 && |m| == 2 && |s| == 2
    requires AllDigits(h) && AllDigits(m) && AllDigits(s) && ValueOf(s) < 60
    requires key == h + [':'] + m + [':'] + s
    ensures |key| == 8
    ensures ParseTimeKey(key) == Some((ValueOf(h), 60 * ValueOf(m) + ValueOf(s)))
  {
    Fields(h, m, s, ':');
    ParseTimeFields(key, h, m, s);
  }

  /**
   * Within one hour, whatever `tm_hour` holds, distinct slots get distinct
   * keys: no two INSERTs of an hour compete for the same primary key.
   */
  lemma TimeKeyInjective(hour: int, c1: nat, c2: nat)
    requires c1 < NO_DATEN && c2 < NO_DATEN
    ensures TimeKey(hour, c1) == TimeKey(hour, c2) <==> c1 == c2
  {
    if TimeKey(hour, c1) == TimeKey(hour, c2) {
      var h := PadZero(hour, 2);
      var m1, s1 := PadZero((c1 - c1 % 60) / 60, 2), PadZero(c1 % 60, 2);
      var m2, s2 := PadZero((c2 - c2 % 60) / 60, 2), PadZero(c2 % 60, 2);
      SlotFields(c1);
      SlotFields(c2);
      SameTail(h, m1, s1, m2, s2);
    }
  }

  /** Two keys with the same hour field and two-character minute and second agree field by field. */
  lemma SameTail(h: string, m1: string, s1: string, m2: string, s2: string)
    requires |m1| == |m2| == 2 && |s1| == |s2| == 2
    requires h + [':'] + m1 + [':'] + s1 == h + [':'] + m2 + [':'] + s2
    ensures m1 == m2 && s1 == s2
  {
    Fields(h, m1, s1, ':');
    Fields(h, m2, s2, ':');
  }

  /**
   * Both `sprintf` targets are LEN_TABELLENAME bytes. Whatever `int` values
   * the date fields hold, the table name and its terminating NUL fit.
   */
  lemma TableNameFits(t: Tm)
    requires -0x8000_0000 <= t.year + 1900 < 0x8000_0000
    ensures |TableName(t)| + 1 <= LEN_TABELLENAME
  {
    TenDigits();
    PadZeroLength(t.year + 1900, 4, 10);
    PadZeroLength(t.mon + 1, 2, 10);
    PadZeroLength(t.mday, 2, 10);
  }

  /** The time key and its NUL fit for any `tm_hour` and slot of the hour. */
  lemma TimeKeyFits(hour: i32, cnt: nat)
    requires cnt < NO_DATEN
    ensures |TimeKey(hour, cnt)| + 1 <= LEN_TABELLENAME
  {
    TenDigits();
    PadZeroLength(hour, 2, 10);
    SlotFields(cnt);
  }

  /** Every 32-bit value has at most ten decimal digits. */
  lemma TenDigits()
    ensures Pow10(10) == 10_000_000_000
  {
    assert Pow10(5) == 100_000;
  }

  /** The keys of the 3600 slots of an hour, in slot order. */
  function SlotKeys(hour: int): (keys: seq<string>)
    ensures |keys| == NO_DATEN
  {
    seq(NO_DATEN, c requires 0 <= c < NO_DATEN => TimeKey(hour, c))
  }

  predicate Distinct(keys: seq<string>)
  {
    forall i, j :: 0 <= i < j < |keys| ==> keys[i] != keys[j]
  }

  lemma SlotKeysDistinct(hour: int)
    ensures Distinct(SlotKeys(hour))
  {
    var keys := SlotKeys(hour);
    forall i, j | 0 <= i < j < |keys|
      ensures keys[i] != keys[j]
    {
      TimeKeyInjective(hour, i, j);
    }
  }

  /**
   * The insert pass over an existing table: slot `cnt` is offered under
   * `keys[cnt]` unless it is blank; the server stores it unless the key is
   * taken or it refuses the statement (`refused`). The loop runs in slot
   * order, as the C `for` loop does.
   */
  method InsertSlots(table: Table, keys: seq<string>, data: seq<Measurement>, refused: set<nat>) returns (result: Table)
    requires |keys| == |data| && Distinct(keys)
    ensures forall k :: k in table ==> k in result && result[k] == table[k]
    ensures forall c :: 0 <= c < |keys| ==>
      (keys[c] in result <==> keys[c] in table || (!IsBlank(data[c]) && c !in refused))
    ensures forall c :: 0 <= c < |keys| && keys[c] !in table && keys[c] in result ==> result[keys[c]] == Row(data[c])
    ensures forall k :: k in result && k !in table ==> k in keys
  {
    result := table;
    var cnt := 0;
    while cnt < |keys|
      invariant 0 <= cnt <= |keys|
      invariant forall k :: k in table ==> k in result && result[k] == table[k]
      invariant forall c :: 0 <= c < cnt ==>
        (keys[c] in result <==> keys[c] in table || (!IsBlank(data[c]) && c !in refused))
      invariant forall c :: cnt <= c < |keys| ==> (keys[c] in result <==> keys[c] in table)
      invariant forall c :: 0 <= c < |keys| && keys[c] !in table && keys[c] in result ==> result[keys[c]] == Row(data[c])
      invariant forall k :: k in result && k !in table ==> k in keys[..cnt]
    {
      if !IsBlank(data[cnt]) && cnt !in refused {
        var zeitpunkt := keys[cnt];
        if zeitpunkt !in result {
          result := result[zeitpunkt := Row(data[cnt])];
        }
      }
      assert keys[..cnt + 1] == keys[..cnt] + [keys[cnt]];
      cnt := cnt + 1;
    }
    assert keys[..cnt] == keys;
  }

  /** The cleanup DELETE: every row whose columns are all zero is removed. */
  function DeleteZeroRows(table: Table): (result: Table)
    ensures forall k :: k in result ==> !IsZeroRow(result[k])
    ensures forall k :: k in table && !IsZeroRow(table[k]) ==> k in result && result[k] == table[k]
    ensures result.Keys <= table.Keys
    ensures forall k :: k in result ==> result[k] == table[k]
  {
    map k | k in table && !IsZeroRow(table[k]) :: table[k]
  }

  /**
   * `CREATE TABLE IF NOT EXISTS` for the day of `t`: on a connection and a
   * query that succeed the day's table exists afterwards, an existing one
   * untouched; the result is the query's.
   */
  function CreateDayTable(connected: bool, queryOk: bool, db: Db, t: Tm): (r: (bool, Db))
    ensures r.0 <==> connected && queryOk
    ensures r.0 ==> TableName(t) in r.1
    ensures forall n :: n in db ==> n in r.1 && r.1[n] == db[n]
    ensures forall n :: n in r.1 && n !in db ==> n == TableName(t) && r.1[n] == map[]
  {
    if !connected || !queryOk then (false, db)
    else if TableName(t) in db then (true, db)
    else (true, db[TableName(t) := map[]])
  }

  /** Creating the table twice is the same as creating it once. */
  lemma CreateIdempotent(db: Db, t: Tm)
    ensures CreateDayTable(true, true, CreateDayTable(true, true, db, t).1, t).1 == CreateDayTable(true, true, db, t).1
  {
  }

  /**
   * A row new in the day's table: it is the row of a slot of the hour that
   * is not blank and whose INSERT the server did not refuse, stored under
   * that slot's time key.
   */
  predicate NewRow(k: string, row: Columns, hour: int, data: seq<Measurement>, refused: set<nat>)
    requires |data| == NO_DATEN
  {
    exists c :: 0 <= c < NO_DATEN && k == TimeKey(hour, c) && !IsBlank(data[c]) && c !in refused && row == Row(data[c])
  }

  /**
   * The whole insert method: without a database connection nothing is
   * stored and the result is failure. With one the result is success,
   * whatever became of the individual statements: rows are inserted into
   * the day's table if it exists, then, if the DELETE is carried out
   * (`cleaned`), all-zero rows are removed from it. No row of this hour is
   * lost to the cleanup, because blank slots are never inserted; rows that
   * were there before are kept unchanged unless the DELETE removes them for
   * being all zero.
   */
  method StoreHour(connected: bool, db: Db, t: Tm, data: seq<Measurement>, refused: set<nat>, cleaned: bool)
    returns (ok: bool, result: Db)
    requires |data| == NO_DATEN
    ensures ok <==> connected
    ensures !connected ==> result == db
    ensures result.Keys == db.Keys
    ensures forall n :: n in db && n != TableName(t) ==> result[n] == db[n]
    ensures connected && TableName(t) in db ==>
      var before, after := db[TableName(t)], result[TableName(t)];
      && (forall c :: 0 <= c < NO_DATEN && !IsBlank(data[c]) && c !in refused && TimeKey(t.hour, c) !in before ==>
            TimeKey(t.hour, c) in after && after[TimeKey(t.hour, c)] == Row(data[c]))
      && (forall k :: k in before && !IsZeroRow(before[k]) ==> k in after && after[k] == before[k])
      && (forall k :: k in before && k in after ==> after[k] == before[k])
      && (!cleaned ==> forall k :: k in before ==> k in after)
      && (forall k :: k in after && k !in before ==> NewRow(k, after[k], t.hour, data, refused))
      && (cleaned ==> forall k :: k in after ==> !IsZeroRow(after[k]))
  {
    if !connected {
      return false, db;
    }
    var name := TableName(t);
    result := db;
    if name in db {
      SlotKeysDistinct(t.hour);
      var table := InsertSlots(db[name], SlotKeys(t.hour), data, refused);
      forall c | 0 <= c < NO_DATEN && !IsBlank(data[c])
        ensures !IsZeroRow(Row(data[c]))
      {
        BlankIffZeroRow(data[c], 0, 0);
      }
      var inserted := table;
      forall k | k in inserted && k !in db[name]
        ensures NewRow(k, inserted[k], t.hour, data, refused)
      {
        var c :| 0 <= c < NO_DATEN && SlotKeys(t.hour)[c] == k;
      }
      if cleaned {
        table := DeleteZeroRows(table);
      }
      result := db[name := table];
    }
    return true, result;
  }
}

=== FILE: program.dfy ===
/**
 * The program's `main`: read the identity block (a connection test of the
 * device), create the day's table (a connection test of the database),
 * wait for the full hour, acquire the hour, and store it. Each step runs
 * only if the previous ones succeeded, and the exit status is success
 * exactly when all of them did.
 */
module Program {
  import opened Words
  import opened Settings
  import opened Wrappers
  import opened Modbus
  import opened MeasurementBlock
  import opened IdentityBlock
  import opened Acquisition
  import opened Persistence

  /**
   * Everything the environment answers during one run: the identity read
   * (create, connect, registers), the table creation (connection, query),
   * the acquisition (create, connect, clock, and the events of its loops),
   * and the store (connection, refused statements, DELETE carried out).
   */
  datatype Environment = Environment(
    idCreated: bool, idConnected: bool, idRead: ReadOutcome,
    createConnected: bool, createOk: bool,
    dataCreated: bool, dataConnected: bool, clockOk: bool, trace: seq<Event>,
    storeConnected: bool, refused: set<nat>, cleaned: bool)

  /**
   * The slots the acquisition hands over: present only if it started and
   * its loop ran to the end of the hour within the given events.
   */
  function Acquired(env: Environment): (r: Option<seq<Block>>)
    ensures r.Some? ==> |r.value| == NO_DATEN && forall i :: 0 <= i < NO_DATEN ==> |r.value[i]| == LEISTUNGSREGISTER
  {
    match Start(env.dataCreated, env.dataConnected, env.clockOk)
    case None => None
    case Some(s) => Result(Run(s, env.trace))
  }

  /** The hour's slots read as `s10daten` records. */
  function Readings(slots: seq<Block>, o: ByteOrder): (data: seq<Measurement>)
    requires |slots| == NO_DATEN && forall i :: 0 <= i < NO_DATEN ==> |slots[i]| == LEISTUNGSREGISTER
    ensures |data| == NO_DATEN
  {
    seq(NO_DATEN, i requires 0 <= i < NO_DATEN => Decode(slots[i], o))
  }

  /**
   * A slot the acquisition never wrote reads as the all-zero record, which
   * the insert pass skips.
   */
  lemma ClearedSlotSkipped(o: ByteOrder)
    ensures Decode(Cleared(), o) == Zero && IsBlank(Decode(Cleared(), o))
  {
    DecodeZero(Cleared(), o);
    BlankIffZeroRow(Zero, 0, 0);
  }

  /**
   * One run of the program against a database. The exit status is success
   * exactly when the identity was read, the table created, the hour
   * acquired and the database reached. No table is ever dropped, other
   * tables are untouched, and an old row of the day's table is either kept
   * as it was or, being all zero, deleted. A run that fails stores nothing:
   * every table is as it was, except that the day's table may have been
   * created, empty. When everything succeeded the day's table exists
   * and holds every non-blank, unrefused reading of the hour under its
   * time key, unless that key was already taken.
   */
  method Execute(env: Environment, db: Db, t: Tm, o: ByteOrder) returns (exitOk: bool, result: Db)
    ensures exitOk <==>
      && Prepared(env) && Acquired(env).Some? && env.storeConnected
    ensures forall n :: n in result && n !in db ==> n == TableName(t)
    ensures forall n :: n in db ==> n in result
    ensures !exitOk ==>
      forall n :: n in result ==> if n in db then result[n] == db[n] else result[n] == map[]
    ensures forall n :: n in db && n != TableName(t) ==> result[n] == db[n]
    ensures TableName(t) in db ==>
      var before, after := db[TableName(t)], result[TableName(t)];
      && (forall k :: k in before && !IsZeroRow(before[k]) ==> k in after && after[k] == before[k])
      && (forall k :: k in before && k in after ==> after[k] == before[k])
    ensures Acquired(env).None? || !Prepared(env) ==>
      forall n :: n in db ==> n in result && result[n] == db[n]
    ensures exitOk ==>
      var data := Readings(Acquired(env).value, o);
      var before := if TableName(t) in db then db[TableName(t)] else map[];
      && TableName(t) in result
      && (forall c :: 0 <= c < NO_DATEN && !IsBlank(data[c]) && c !in env.refused && TimeKey(t.hour, c) !in before ==>
            TimeKey(t.hour, c) in result[TableName(t)] && result[TableName(t)][TimeKey(t.hour, c)] == Row(data[c]))
      && forall k :: k in result[TableName(t)] && k !in before ==> NewRow(k, result[TableName(t)][k], t.hour, data, env.refused)
  {
    var id := ReadIdentity(env.idCreated, env.idConnected, env.idRead, o);
    if id.None? {
      return false, db;
    }
    var (createdOk, db1) := CreateDayTable(env.createConnected, env.createOk, db, t);
    if !createdOk {
      return false, db1;
    }
    var slots := Acquired(env);
    if slots.None? {
      return false, db1;
    }
    var stored;
    stored, result := StoreHour(env.storeConnected, db1, t, Readings(slots.value, o), env.refused, env.cleaned);
    exitOk := stored;
  }

  /** The identity was read and the day's table created. */
  predicate Prepared(env: Environment)
  {
    && env.idCreated && env.idConnected && Delivered(env.idRead, IDENTIFIKREGISTER)
    && env.createConnected && env.createOk
  }
}

=== FILE: scheduler.dfy ===
/**
 * The wait before the hour of acquisition (`SchlafeBisVolleStunde`): one
 * coarse sleep to two seconds before the full hour, then short sleeps,
 * each followed by a look at the wall clock, until the loop condition
 * fails. Only the arithmetic on the clock's minute and second is modelled;
 * the clock readings themselves are inputs.
 */
module Scheduler {
  import opened Wrappers

  /** A time within the hour: `tm_min` 0..59 and `tm_sec` 0..60 (leap second). */
  predicate ClockFields(min: int, sec: int)
  {
    0 <= min <= 59 && 0 <= sec <= 60
  }

  /**
   * The seconds of the coarse sleep: from min:sec to 59:58 of the same
   * hour, and zero once that moment has passed (a negative wait is clamped).
   */
  function CoarseWait(min: int, sec: int): (w: nat)
  {
    var wartezeit := 60 * (59 - min) + 58 - sec;
    if wartezeit < 0 then 0 else wartezeit
  }

  /** The condition under which the fine-polling loop sleeps once more. */
  predicate FineLoopContinues(min: int, sec: int)
  {
    sec > 0 && min > 0
  }

  /**
   * The coarse wait ends exactly at 59:58 when started at or before that
   * moment, and is empty after it.
   */
  lemma CoarseWaitTarget(min: int, sec: int)
    requires ClockFields(min, sec)
    ensures 60 * min + sec <= 3598 ==> 60 * min + sec + CoarseWait(min, sec) == 3598
    ensures 60 * min + sec > 3598 ==> CoarseWait(min, sec) == 0
    ensures CoarseWait(min, sec) <= 3598
  {
  }

  /**
   * The loop stops at the first reading whose second or whose minute is
   * zero: at every full minute as well as at the full hour.
   */
  lemma FineLoopStops(min: int, sec: int)
    requires ClockFields(min, sec)
    ensures !FineLoopContinues(min, sec) <==> sec == 0 || min == 0
    ensures !FineLoopContinues(0, 0)
    ensures min == 59 && sec >= 1 ==> FineLoopContinues(min, sec)
  {
  }

  /** The clock reading at second t of the hour, split into minute and second. */
  function MinuteOf(t: nat): nat { t / 60 }
  function SecondOf(t: nat): nat { t % 60 }

  /** The index of the first reading at which the fine loop stops, if any. */
  function FirstStop(readings: seq<nat>): (r: Option<nat>)
    ensures r.Some? ==> r.value < |readings|
    ensures r.Some? ==> !FineLoopContinues(MinuteOf(readings[r.value]), SecondOf(readings[r.value]))
    ensures r.Some? ==> forall j :: 0 <= j < r.value ==> FineLoopContinues(MinuteOf(readings[j]), SecondOf(readings[j]))
    ensures r.None? ==> forall j :: 0 <= j < |readings| ==> FineLoopContinues(MinuteOf(readings[j]), SecondOf(readings[j]))
  {
    if readings == [] then None
    else if !FineLoopContinues(MinuteOf(readings[0]), SecondOf(readings[0])) then Some(0)
    else match FirstStop(readings[1..])
      case None => None
      case Some(i) => Some(i + 1)
  }

  /**
   * Clock readings, in seconds of the hour, from a clock that runs forward
   * and is read at least once per second: each reading is the previous one
   * or the one after it, 59:59 being followed by 00:00.
   */
  predicate Ticking(readings: seq<nat>)
  {
    && (forall j :: 0 <= j < |readings| ==> readings[j] < 3600)
    && (forall j :: 0 < j < |readings| ==>
          readings[j] == readings[j - 1] || readings[j] == (readings[j - 1] + 1) % 3600)
  }

  /**
   * Entered during minute 59 at second 1 or later (where the coarse wait
   * leaves it), the fine loop stops exactly at the first reading of
   * 00:00, so the acquisition starts at the full hour although the loop
   * condition would also stop at other full minutes.
   */
  lemma {:induction false} FineLoopEndsAtFullHour(readings: seq<nat>)
    requires Ticking(readings) && |readings| >= 1
    requires 3541 <= readings[0]
    ensures var r := FirstStop(readings);
      (r.Some? ==> readings[r.value] == 0)
      && (r.None? <==> forall j :: 0 <= j < |readings| ==> readings[j] != 0)
    decreases |readings|
  {
    if |readings| > 1 && readings[0] != 0 {
      var rest := readings[1..];
      assert Ticking(rest) by {
        forall j | 0 < j < |rest|
          ensures rest[j] == rest[j - 1] || rest[j] == (rest[j - 1] + 1) % 3600
        {
          assert rest[j] == readings[j + 1] && rest[j - 1] == readings[j];
        }
      }
      assert readings[1] == readings[0] || readings[1] == (readings[0] + 1) % 3600;
      if rest[0] == 0 {
        assert FirstStop(rest) == Some(0);
      } else {
        FineLoopEndsAtFullHour(rest);
      }
      forall j | 0 <= j < |readings| && readings[j] != 0
        ensures j == 0 || readings[j] == rest[j - 1]
      {
      }
    }
  }
}

=== FILE: settings.dfy ===
/**
 * The build-time settings of the acquisition program (Einstellungen.h) that the
 * model depends on. Addresses, credentials and file paths are not modelled.
 */
module Settings {

  /** Read failures tolerated since the last (re)connect before reconnecting. */
  const LESEFEHLER_AKZEPT: nat := 60

  /** Attempts allowed in each reconnect phase before the hour is given up. */
  const NEUVERBIND_AKZEPT: nat := 600

  /** Number of identity registers, starting at register 0. */
  const IDENTIFIKREGISTER: nat := 67

  /** Number of measurement registers, starting at register IDENTIFIKREGISTER. */
  const LEISTUNGSREGISTER: nat := 37

  /** Buffer size used for the table name and for the time key. */
  const LEN_TABELLENAME: nat := 48

  /** Seconds in one hour: 60 * 60. Length of the hourly buffer and loop bound. */
  const NO_DATEN: nat := 3600

  /** A window of consecutive holding registers: first address and count. */
  datatype Window = Window(start: nat, count: nat) {
    /** One past the last register of the window. */
    function End(): nat { start + count }

    predicate Contains(register: nat) { start <= register < End() }
  }

  /** The identity block is read from address 0. */
  function IdentityWindow(): Window { Window(0, IDENTIFIKREGISTER) }

  /** The measurement block is read from address IDENTIFIKREGISTER. */
  function MeasurementWindow(): Window { Window(IDENTIFIKREGISTER, LEISTUNGSREGISTER) }

  /**
   * The two register windows are adjacent: the measurement block starts right
   * after the identity block, and no register belongs to both.
   */
  lemma WindowsAdjacent()
    ensures IdentityWindow().End() == MeasurementWindow().start
    ensures forall r: nat :: !(IdentityWindow().Contains(r) && MeasurementWindow().Contains(r))
    ensures forall r: nat :: r < MeasurementWindow().End() ==>
              IdentityWindow().Contains(r) || MeasurementWindow().Contains(r)
  {
  }
}

=== FILE: words.dfy ===
/**
 * Fixed-width integers, host byte order and the memory image that `memcpy`
 * produces when an array of uint16 registers is copied into a C struct.
 *
 * libmodbus hands registers to the program as numeric uint16 values; how
 * those values sit in memory, and therefore which bytes a struct field
 * overlaying them reads, depends on the byte order of the host.
 */
module Words {

  type byte = x: int | 0 <= x < 0x100
  type u16 = x: int | 0 <= x < 0x1_0000
  type i16 = x: int | -0x8000 <= x < 0x8000
  type u32 = x: int | 0 <= x < 0x1_0000_0000
  type i32 = x: int | -0x8000_0000 <= x < 0x8000_0000

  /** Byte order of the host the program runs on. */
  datatype ByteOrder = LittleEndian | BigEndian

  /** Most significant byte of a 16-bit value. */
  function Hi(v: u16): byte { v / 0x100 }

  /** Least significant byte of a 16-bit value. */
  function Lo(v: u16): byte { v % 0x100 }

  /** The 16-bit value with the given most and least significant bytes. */
  function Word(hi: byte, lo: byte): (v: u16)
    ensures Hi(v) == hi && Lo(v) == lo
  {
    hi * 0x100 + lo
  }

  lemma WordOfBytes(v: u16)
    ensures Word(Hi(v), Lo(v)) == v
  {
  }

  /** Byte `j` (0 or 1) in memory of a uint16 stored in host byte order. */
  function StoredByte(v: u16, o: ByteOrder, j: nat): byte
    requires j < 2
  {
    if o.LittleEndian? == (j == 0) then Lo(v) else Hi(v)
  }

  /** The uint16 whose memory bytes, in host byte order, are `b0` then `b1`. */
  function StoredWord(b0: byte, b1: byte, o: ByteOrder): (v: u16)
    ensures StoredByte(v, o, 0) == b0 && StoredByte(v, o, 1) == b1
  {
    if o.LittleEndian? then Word(b1, b0) else Word(b0, b1)
  }

  /**
   * The bytes `memcpy` copies from an array of uint16 held in host byte
   * order: register k occupies bytes 2k and 2k+1.
   */
  function Image(regs: seq<u16>, o: ByteOrder): (mem: seq<byte>)
    ensures |mem| == 2 * |regs|
  {
    seq(2 * |regs|, i requires 0 <= i < 2 * |regs| => StoredByte(regs[i / 2], o, i % 2))
  }

  /** Reads a uint16 at byte offset `off` of a memory image, in host byte order. */
  function LoadU16(mem: seq<byte>, off: nat, o: ByteOrder): u16
    requires off + 2 <= |mem|
  {
    StoredWord(mem[off], mem[off + 1], o)
  }

  /** Reads a uint32 at byte offset `off` of a memory image, in host byte order. */
  function LoadU32(mem: seq<byte>, off: nat, o: ByteOrder): u32
    requires off + 4 <= |mem|
  {
    JoinWords(LoadU16(mem, off, o), LoadU16(mem, off + 2, o), o)
  }

  /**
   * The uint32 whose two halves lie in memory as `first` then `second`:
   * on a little-endian host the first half is the low one.
   */
  function JoinWords(first: u16, second: u16, o: ByteOrder): u32
  {
    if o.LittleEndian? then first + 0x1_0000 * second else 0x1_0000 * first + second
  }

  /** The two halves of a uint32 in the order they lie in memory. */
  function SplitWords(v: u32, o: ByteOrder): (halves: (u16, u16))
    ensures JoinWords(halves.0, halves.1, o) == v
  {
    if o.LittleEndian? then (v % 0x1_0000, v / 0x1_0000) else (v / 0x1_0000, v % 0x1_0000)
  }

  lemma SplitJoin(first: u16, second: u16, o: ByteOrder)
    ensures SplitWords(JoinWords(first, second, o), o) == (first, second)
  {
  }

  /** Two's complement reading of a 16-bit pattern (int16_t). */
  function AsSigned16(v: u16): (s: i16)
    ensures s == v || s == v - 0x1_0000
  {
    if v < 0x8000 then v else v - 0x1_0000
  }

  /** The 16-bit pattern of an int16_t. */
  function AsUnsigned16(s: i16): (v: u16)
    ensures AsSigned16(v) == s
  {
    if s < 0 then s + 0x1_0000 else s
  }

  /** Two's complement reading of a 32-bit pattern (int32_t). */
  function AsSigned32(v: u32): (s: i32)
    ensures s == v || s == v - 0x1_0000_0000
  {
    if v < 0x8000_0000 then v else v - 0x1_0000_0000
  }

  /** The 32-bit pattern of an int32_t. */
  function AsUnsigned32(s: i32): (v: u32)
    ensures AsSigned32(v) == s
  {
    if s < 0 then s + 0x1_0000_0000 else s
  }

  lemma SignedRoundTrip(v16: u16, v32: u32)
    ensures AsUnsigned16(AsSigned16(v16)) == v16
    ensures AsUnsigned32(AsSigned32(v32)) == v32
  {
  }

  /**
   * `be16toh`: converts a big-endian 16-bit value to host order. It swaps
   * the two bytes on a little-endian host and is the identity otherwise.
   */
  function Be16ToH(v: u16, o: ByteOrder): u16
  {
    if o.LittleEndian? then Word(Lo(v), Hi(v)) else v
  }

  /**
   * Reading a uint16 back out of the memory image at an even offset yields
   * the register stored there, whatever the host byte order.
   */
  lemma LoadImage(regs: seq<u16>, o: ByteOrder, k: nat)
    requires k < |regs|
    ensures LoadU16(Image(regs, o), 2 * k, o) == regs[k]
  {
    var mem := Image(regs, o);
    assert mem[2 * k] == StoredByte(regs[k], o, 0);
    assert mem[2 * k + 1] == StoredByte(regs[k], o, 1);
    WordOfBytes(regs[k]);
  }

  /**
   * After `be16toh` the bytes of a register lie in memory most significant
   * byte first on every host: the wire order of the register.
   */
  lemma Be16ToHStoresBigEndian(v: u16, o: ByteOrder)
    ensures StoredByte(Be16ToH(v, o), o, 0) == Hi(v)
    ensures StoredByte(Be16ToH(v, o), o, 1) == Lo(v)
  {
  }

  /** The byte at offset i of the memory image, in terms of the registers. */
  lemma ImageByte(regs: seq<u16>, o: ByteOrder, i: nat)
    requires i < 2 * |regs|
    ensures Image(regs, o)[i] == StoredByte(regs[i / 2], o, i % 2)
  {
  }
}

=== FILE: wrappers.dfy ===
/** An optional value: the result of a step that may fail. */
module Wrappers {
  datatype Option<+T> = None | Some(value: T)
}
